=== FILE: README.md ===
# sitemap_generator core, modelled in Dafny

This project models the bounded, rolling multi-file sitemap writer of the Ruby gem
`sitemap_generator`, and proves properties of the model. Under the Sitemaps XML
protocol 0.9, one sitemap document may hold at most 50,000 URLs and must stay under
10,485,760 bytes uncompressed. The writer is built in five pieces:

- `SimpleNamer` (module `Namer`, `namer.dfy`) is a cursor over the file-name series
  `sitemap.xml.gz`, `sitemap1.xml.gz`, `sitemap2.xml.gz`, ... It supports `next`,
  `previous`, `reset` and `start?`.
- `SitemapFile` (module `SitemapFiles`, `sitemap_file.dfy`) is one append-only document.
  It refuses an entry that would reach the byte ceiling or exceed the link ceiling, and it has a one-way `finalize!`
  flag.
- `SitemapIndexFile` (module `IndexFiles`, `sitemap_index_file.dfy`) is a sitemap file
  whose `add` first records and finalizes the file it is handed, and only then appends a
  reference to that file.
- `LinkSet` (module `LinkSets`, `link_set.dfy`) is the coordinator. Its `add` sends each
  link to the current file. When that file is full, `add` rolls over to a freshly named
  one. `finalize!` writes out the last file and the index. Setters propagate location
  and name changes to the files that are still open.
- The legacy `LinkSet::Writer` (module `Writer`, `writer.dfy`) is an older, count-only
  batcher. It flushes every `max_entries` links to `sitemapN.xml.gz` and clears its lists
  when the index is written.

`common.dfy` holds the protocol limits, the error kinds and the serialized-entry type.
`decimal.dfy` holds the decimal rendering of integers that file names embed, and
`names.dfy` the abstract name supply and location record that sitemap files carry.

Ruby exceptions become `Result`/`Outcome` values. A raise in Ruby does not undo the
mutations made before it. So the coordinator's operations return the changed state
together with the outcome: an index that raised after recording a file still holds that
file. Disk writes are reduced to an environment (`IndexFiles.Env`) that says which file
names fail to write. The environment also maps a finalized file to the serialized
`<sitemap>` reference the index stores for it.

The code is modelled as written, including where it is surprising:

- `LinkSet#add` keeps no count of its retries. An entry too large for an empty file
  makes it roll over again and again. Each rollover records an empty file in the index,
  until the index itself is full and its error escapes. Nothing in the code bounds the
  retries. The model follows the code and proves that the loop
  ends anyway, because each rollover uses up a reference of room in the index.
  `LinkSets.AtMostOneRollover` proves the single-rollover bound for entries that fit an
  empty file. `LinkSets.AddFromRefusesOversize` proves that any other entry is never
  stored.
- `SitemapFile#add` does not finalize a full file, although its doc comment says it
  does. The coordinator's `finalize_sitemap!` does that instead.
- The `default_host=`, `public_path=`, `sitemaps_path=` and `sitemaps_host=` setters do
  not write their instance variables. They only merge the value into location records.

Where the code is evidently wrong, the rest of the model composes the corrected
definition. Each such place is a row under "## Findings", with a member for the code as
written next to the corrected one:

- `LinkSets.WithIndex` builds the index with the corrected constructor `IndexFiles.New`.
  As written, `SitemapIndexFile.new` always raises NoMethodError, so every first use of
  `sitemap_index` raises in the program: the first rollover of `add`, `finalize!` and
  `create`. `LinkSets.FinalizeSitemap`, `LinkSets.FinalizeIndex`, `LinkSets.Finalize`,
  `LinkSets.TryAdd`, `LinkSets.AddFrom`, `LinkSets.Add`, `LinkSets.Create` and the
  `Packing` lemmas compose that corrected constructor. They describe the program with
  `sitemap_index_file.rb` line 25 fixed.
- `LinkSets.FileLocation` gives new files the coordinator's host (the default host)
  unless a sitemaps host is set. As written the lazy readers use `@host`, which only a
  `:host` option sets (`LinkSets.FileLocationAsWritten`).
- `LinkSets.SetFilename` renames an open index after `base_index`, as the lazy reader
  names a new index. As written it is renamed after `base` (`LinkSets.SetFilenameAsWritten`).

## Model

| member | source | states |
|---|---|---|
| Namer.New | lib/sitemap_generator/sitemap_namer.rb:32-37 | a new namer stands on the zero marker, with its base and options as given |
| Namer.IsStart | lib/sitemap_generator/sitemap_namer.rb:56-59 | `start?` holds exactly on the zero marker, whose name carries the zero marker's text; any other position's name carries the count |
| Namer.Reset | lib/sitemap_generator/sitemap_namer.rb:52-59 | after `reset` the namer is at the start of the series, base and options unchanged |
| Namer.Next | lib/sitemap_generator/sitemap_namer.rb:62-69 | from the zero marker the count becomes `start`; otherwise it grows by exactly one; the result is never at the start; reachable states stay reachable |
| Namer.Previous | lib/sitemap_generator/sitemap_namer.rb:72-80 | raises exactly at the zero marker; from a count at or below `start` goes back to the zero marker, otherwise one back |
| Namer.PreviousAfterNext | lib/sitemap_generator/sitemap_namer.rb:62-80 | `previous` undoes `next` on every reachable state |
| Namer.NextAfterPrevious | lib/sitemap_generator/sitemap_namer.rb:62-80 | on a reachable numbered state `previous` succeeds and `next` undoes it |
| Namer.NextNCount | lib/sitemap_generator/sitemap_namer.rb:62-69 | `k` advances move the count exactly `k` past its origin |
| Namer.NameAsWritten | lib/sitemap_generator/sitemap_namer.rb:39-49 | as written, the name starts with the base and ends with the extension unchanged |
| Namer.CompressIgnoredAsWritten | lib/sitemap_generator/sitemap_namer.rb:39-49 | as written, the `:compress` option never changes a name |
| Namer.UncompressedNameKeepsGz | lib/sitemap_generator/sitemap_namer.rb:39-49 | as written, a namer told not to compress still names its first file `sitemap.xml.gz` |
| Namer.Name | lib/sitemap_generator/sitemap_namer.rb:28-49 | the documented name agrees with the written one whenever `.gz` is not to be stripped, and always starts with the base |
| Namer.StripGz | lib/sitemap_generator/sitemap_namer.rb:45 | removing every `.gz` never lengthens the extension |
| Decimal.IntToStringInjective | lib/sitemap_generator/sitemap_namer.rb:48 | the count's interpolation into a name is injective, so distinct counts give distinct names |
| Namer.StripTrailingGz | lib/sitemap_generator/sitemap_namer.rb:45 | Ruby's `gsub(/\.gz/, '')` drops a trailing `.gz` and leaves the rest as it would alone |
| Namer.UncompressedNameDropsGz | lib/sitemap_generator/sitemap_namer.rb:28-49 | as documented, when compression is off for a name its extension loses the trailing `.gz`, so the name differs from the one written |
| Namer.DefaultFirstName | lib/sitemap_generator/sitemap_namer.rb:8-30 | as documented, with default options the first name is `base.xml.gz`, or `base.xml` when `:compress` is `false` or `:all_but_first` |
| Namer.DefaultNumberedNames | lib/sitemap_generator/sitemap_namer.rb:8-30 | as documented, with default options the next names are `base1.xml.gz` and `base2.xml.gz`, losing `.gz` only when `:compress` is `false` |
| Namer.ResetRestartsSeries | lib/sitemap_generator/sitemap_namer.rb:52-54 | after `reset` the name is that of a new namer |
| Namer.WrittenNamesDistinct | lib/sitemap_generator/sitemap_namer.rb:48-69 | as written, successive `next` calls from one state give pairwise distinct names |
| Namer.NamesDistinct | lib/sitemap_generator/sitemap_namer.rb:48-69 | successive `next` calls from one state give pairwise distinct names, both as written and as documented |
| Names.NameSupply.Take | lib/sitemap_generator/builder/sitemap_file.rb:31-32 | the namer hands out a name it had not issued before, and afterwards has issued exactly one more |
| SitemapFiles.New | lib/sitemap_generator/builder/sitemap_file.rb:26-50 | a new file is valid, empty, open, sized as its wrapper (464 bytes), named by the given namer's next name or the base's first name, and its location records the name |
| SitemapFiles.IsEmpty | lib/sitemap_generator/builder/sitemap_file.rb:56-58 | for a valid open file, `empty?` holds exactly when no entry is buffered |
| SitemapFiles.FileCanFit | lib/sitemap_generator/builder/sitemap_file.rb:60-66 | `file_can_fit?(bytes)` holds exactly when the file grown by one link of that size stays within both protocol limits |
| SitemapFiles.Add | lib/sitemap_generator/builder/sitemap_file.rb:83-92 | refuses as finalized exactly when finalized, before any size check; refuses as full exactly when the entry would reach the byte ceiling or the file holds the maximum links; otherwise appends the entry and grows both counters; the limits are preserved |
| SitemapFiles.Finalize | lib/sitemap_generator/builder/sitemap_file.rb:101-122 | raises on a finalized file; a failed write leaves the file open with its content; a successful one clears content and wrapper and sets the flag, keeping counters, name and location |
| SitemapFiles.FinalizedIsFinal | lib/sitemap_generator/builder/sitemap_file.rb:84-126 | once finalized a file refuses every `add` and every further `finalize!` |
| SitemapFiles.NewFileAccepts | lib/sitemap_generator/builder/sitemap_file.rb:83-92 | an entry that fits an empty file is accepted by a new file and becomes its only entry |
| SitemapFiles.Next | lib/sitemap_generator/builder/sitemap_file.rb:129-134 | `next` is a valid, empty, open file with the same location and namer base, named by a name the namer had not issued |
| SitemapFiles.NextNNamed | lib/sitemap_generator/builder/sitemap_file.rb:129-134 | the `k`-th successor is named by the namer's `k`-th next name |
| SitemapFiles.SuccessorNamesDistinct | lib/sitemap_generator/builder/sitemap_file.rb:129-134 | a chain of successors never reuses a name |
| SitemapFiles.SetFilename | lib/sitemap_generator/builder/sitemap_file.rb:146-149 | raises exactly on a frozen file; otherwise renames it by the first name of a fresh namer over the base, content and counters unchanged |
| IndexFiles.NewAsWritten | lib/sitemap_generator/builder/sitemap_index_file.rb:9-26 | as written, construction returns exactly when the class has writers for both `sitemaps` and `filesize`, and then yields the intended index; otherwise it raises NoMethodError |
| IndexFiles.ConstructorRaises | lib/sitemap_generator/builder/sitemap_index_file.rb:7-25 | the index class has a `sitemaps` writer from `attr_accessor` but no `filesize` writer, because `SitemapFile` declares `filesize` with `attr_reader` only; so every construction raises, while the intended constructor yields a valid index |
| IndexFiles.New | lib/sitemap_generator/builder/sitemap_index_file.rb:9-26 | as intended, a new index is valid, open, empty, lists no sitemaps, and is sized as the index wrapper (296 bytes) |
| IndexFiles.AddEntry | lib/sitemap_generator/builder/sitemap_index_file.rb:41 | the index's own add succeeds exactly when the plain file's add does, and leaves `sitemaps` alone |
| IndexFiles.Add | lib/sitemap_generator/builder/sitemap_index_file.rb:36-42 | a file is always recorded first and finalized when it can be, whatever state the index is in; then the reference is added, growing the size by its length, or the error escapes; other links behave exactly as the plain add; `sitemaps` only grows |
| IndexFiles.RecordsBeforeRefusing | lib/sitemap_generator/builder/sitemap_index_file.rb:36-42 | an index that is finalized or has no room for the reference, by links or by bytes, still finalizes and records the file it is handed, then raises |
| IndexFiles.LinkCountIsSuccessfulAdds | lib/sitemap_generator/builder/sitemap_index_file.rb:36-42 | over any run of adds the index's link count grows by exactly the number of adds that returned, and `sitemaps` only grows |
| LinkSets.New | lib/sitemap_generator/link_set.rb:58-89 | every option left out takes its default, an explicit nil public path stays nil, the location is built from the paths and default host, no file exists, and the state is consistent |
| LinkSets.Defaults | spec/sitemap_generator/link_set_spec.rb:24-43 | with no options both convenience links are on, the base is `sitemap`, and no sub-path or host is set |
| LinkSets.FileLocation | lib/sitemap_generator/link_set.rb:210-224 | as intended, a new file's location is the coordinator's, with only the host replaced, and only when a sitemaps host is set |
| LinkSets.DefaultHostLostAsWritten | lib/sitemap_generator/link_set.rb:174-224 | as written, after `default_host=` the coordinator's location has the host but, with no `:host` option and no sitemaps host, a new file's location has none |
| LinkSets.DefaultHostReachesNewFiles | lib/sitemap_generator/link_set.rb:174-224 | with the corrected location, a host set by `default_host=` before the files exist reaches the current file and the index created afterwards |
| LinkSets.WithSitemap | lib/sitemap_generator/link_set.rb:210-216 | the current file is created on first use from the coordinator's location, with the sitemaps host when set, and kept after that |
| LinkSets.WithIndex | lib/sitemap_generator/link_set.rb:219-224 | the index is created on first use and named after the base with `_index`, and kept after that |
| LinkSets.FinalizedIffRecordedLast | lib/sitemap_generator/link_set.rb:235-239 | in a consistent state the current file is finalized exactly when it is the file the index recorded last |
| LinkSets.FinalizeSitemap | lib/sitemap_generator/link_set.rb:235-239 | a no-op on a finalized current file; otherwise the file is recorded in the index even if something raises after, and on success it is finalized and the index count grows by one; a failed write leaves the file and its recorded copy open; consistency is kept |
| LinkSets.FinalizeIndex | lib/sitemap_generator/link_set.rb:243-247 | a no-op on a finalized index; otherwise it returns exactly when the index ends up finalized; `sitemaps` is unchanged |
| LinkSets.Finalize | lib/sitemap_generator/link_set.rb:228-231 | on success both the current file and the index are finalized, and the current file is the last one recorded |
| LinkSets.FinalizeIdempotent | lib/sitemap_generator/link_set.rb:228-247 | a second `finalize!` after one that returned changes nothing and raises nothing |
| LinkSets.ReplaceCurrent | lib/sitemap_generator/link_set.rb:108-110 | the current file is replaced by its fresh successor and consistency is kept |
| LinkSets.TryAdd | lib/sitemap_generator/link_set.rb:103-111 | one pass of `add`: stores exactly when the file accepts; replaces exactly a finalized file; on Full records the file and rolls over or lets the index's error escape; every retry lowers the variant |
| LinkSets.AddFrom | lib/sitemap_generator/link_set.rb:103-111 | the retries of `add`, as a recursion whose variant is the room left in the index, so they end on every input and leave a current file |
| LinkSets.Add | lib/sitemap_generator/link_set.rb:103-111 | the rescue/retry loop returns what the retry recursion returns; it changes only the files; on success the link is the last entry of the open current file; an entry that fits an empty file needs at most one rollover; from a consistent state an oversize entry is never stored and a success keeps the state consistent |
| LinkSets.AddFromSummary | lib/sitemap_generator/link_set.rb:103-111 | the retry recursion changes only the files, stores the link last in an open file when it returns, rolls over at most once for an entry that fits an empty file, and from a consistent state refuses an oversize entry and keeps consistency |
| LinkSets.AddFromKeepsConfig | lib/sitemap_generator/link_set.rb:103-111 | `add` changes only the files, and the index only grows |
| LinkSets.AddFromStores | lib/sitemap_generator/link_set.rb:103-111 | when `add` returns, the link is the last entry of the open current file, and the index grew by exactly the number of rollovers |
| LinkSets.AddFromContent | lib/sitemap_generator/link_set.rb:103-111 | without a rollover the link goes after the entries of the file first offered it; after one it is alone in a new file |
| LinkSets.AddFromFirstRollover | lib/sitemap_generator/link_set.rb:103-111 | the first file rolled over is the one the link was first offered to, recorded right after the files already in the index |
| LinkSets.FreshStores | lib/sitemap_generator/link_set.rb:103-111 | a finalized or fresh current file stores an entry that fits an empty file without a rollover |
| LinkSets.AtMostOneRollover | lib/sitemap_generator/link_set.rb:103-111 | an entry that fits an empty file causes at most one rollover |
| LinkSets.AddFromRefusesOversize | lib/sitemap_generator/link_set.rb:103-111 | from a consistent state an entry too large for an empty file is never stored, and a returning `add` keeps the state consistent |
| LinkSets.AddDirect | lib/sitemap_generator/link_set.rb:22-23 | a direct add to the current file succeeds exactly when the file accepts, Full and Finalized escape, and consistency is kept |
| LinkSets.Create | lib/sitemap_generator/link_set.rb:18-31 | starting from no files, the current file gets one link per enabled convenience link when both links fit together in an empty file; on success the file and the index are finalized and the index records exactly that file |
| Names.Location.Merge | lib/sitemap_generator/link_set.rb:258-263 | `merge!` overwrites the one key and keeps every other, including the file name |
| LinkSets.UpdateLocationInfo | lib/sitemap_generator/link_set.rb:258-263 | only the coordinator's location (when asked) and the open files' locations get the key; no file is created; finalized files keep their own locations; consistency is kept |
| LinkSets.SetDefaultHost | lib/sitemap_generator/link_set.rb:174-176 | the host reaches the coordinator's location, the open index and the open current file; the `default_host` attribute is unchanged |
| LinkSets.SetPublicPath | lib/sitemap_generator/link_set.rb:185-187 | the public path reaches the coordinator's location, the open index and the open current file; the `public_path` attribute is unchanged |
| LinkSets.SetSitemapsPath | lib/sitemap_generator/link_set.rb:192-194 | the sub-path reaches the coordinator's location, the open index and the open current file; the `sitemaps_path` attribute is unchanged |
| LinkSets.PathsReachNewFiles | lib/sitemap_generator/link_set.rb:185-216 | a path set before the current file exists reaches the file created next |
| LinkSets.SetSitemapsHostAsWritten | lib/sitemap_generator/link_set.rb:199-201 | as written, neither the `sitemaps_host` attribute nor the coordinator's location changes; only the open index and the open current file get the host |
| LinkSets.SitemapsHostLostAsWritten | lib/sitemap_generator/link_set.rb:196-216 | as written, a sitemaps host set before the first file exists never reaches that file: its as-written location takes the `:host` option (nil by default), and under the corrected location it keeps the coordinator's host; never the host just set |
| LinkSets.SetSitemapsHost | lib/sitemap_generator/link_set.rb:196-201 | as documented, the attribute is set and the open index and the open current file get the host; the coordinator's location and consistency are kept |
| LinkSets.SitemapsHostReachesNewFiles | lib/sitemap_generator/link_set.rb:196-216 | with the corrected setter the host reaches files created afterwards |
| LinkSets.SetFilenameAsWritten | lib/sitemap_generator/link_set.rb:204-207 | as written, the setter differs from the corrected one only in the index, which is renamed after the base itself |
| LinkSets.FilenameCollidesAsWritten | lib/sitemap_generator/link_set.rb:204-207 | as written, with both files open, the index and the current file end up with the same file name |
| LinkSets.SetFilename | lib/sitemap_generator/link_set.rb:204-207 | the base is stored; an open current file is renamed by the base's first name and an open index by `base_index`'s, contents unchanged; finalized files keep their names; consistency is kept |
| LinkSets.FilenameKeepsNamesApart | lib/sitemap_generator/link_set.rb:204-207 | with the corrected setter the open index and current file never share a name |
| LinkSets.FilenameNamesNewFiles | lib/sitemap_generator/link_set.rb:204-224 | files created after `filename=` are named after the new base: `base` and `base_index` |
| Writer.New | lib/sitemap_generator/link_set/writer.rb:19-25 | a new writer has buffered and written nothing, counts zero links and batches `MAX_ENTRIES` |
| Writer.UpcomingIndex | lib/sitemap_generator/link_set/writer.rb:91-93 | there is an upcoming index exactly while more files may be written, and it is one past the number written |
| Writer.UpcomingFile | lib/sitemap_generator/link_set/writer.rb:86-88 | there is an upcoming file exactly while more files may be written, and it is numbered by the upcoming index |
| Writer.NumberedFileParses | lib/sitemap_generator/link_set/writer.rb:86-93 | the number in `sitemapN.xml.gz` reads back as `N` |
| Writer.SitemapPathsDistinct | lib/sitemap_generator/link_set/writer.rb:57-66 | distinct numbers give distinct sitemap paths |
| Writer.IndexedDistinct | lib/sitemap_generator/link_set/writer.rb:57-66 | no file written since the last index is listed twice |
| Writer.WriteSitemap | lib/sitemap_generator/link_set/writer.rb:57-66 | a nil file name raises and nothing changes; otherwise the buffer goes into the file, the buffer is emptied and exactly that path is listed |
| Writer.WriteUpcoming | lib/sitemap_generator/link_set/writer.rb:46-48 | succeeds exactly while more files may be written, lists one more file, empties the buffer, and keeps the numbering |
| Writer.WriteIndex | lib/sitemap_generator/link_set/writer.rb:69-78 | writes the index listing the files written since the last one, then empties both lists; the link count is kept |
| Writer.WritePending | lib/sitemap_generator/link_set/writer.rb:51-54 | succeeds exactly while more files may be written; the buffer goes into the upcoming file and the index then lists that file last |
| Writer.AddLink | lib/sitemap_generator/link_set/writer.rb:34-38 | fails exactly when both the buffer and the file list are full; otherwise counts one more link, flushes a full buffer first, buffers the link last, never lets the buffer exceed `max_entries`, and the written and buffered links grow by exactly that link |
| Writer.AddDefaultLinks | lib/sitemap_generator/link_set/writer.rb:28-31 | with batches of at least two, fails exactly when the file list is full and the buffer has no room for both links; on success the root link and then the index link follow everything written or buffered, and two links are counted |
| Writer.PackedStep | lib/sitemap_generator/link_set/writer.rb:34-38 | one more `add_link` on a packed writer succeeds exactly below the capacity and keeps it packed |
| Writer.AddLinksPacked | lib/sitemap_generator/link_set/writer.rb:34-38 | from a new writer a run of `add_link` succeeds exactly up to `max_entries` full files plus a full buffer; every link is then in a written file or buffered, in order, with full batches in the files |
| Packing.PackStart | lib/sitemap_generator/link_set.rb:103-111 | the first small link goes into a new file and leaves the coordinator packed |
| Packing.PackJoin | lib/sitemap_generator/link_set.rb:103-111 | a small link joins a current file holding fewer than 50,000 links |
| Packing.PackRecord | lib/sitemap_generator/link_set.rb:235-239 | a current file holding 50,000 links is finalized into the index, which has room for it while fewer than 50,000 files are recorded; every recorded file is then full and together they hold all links so far |
| Packing.PackNext | lib/sitemap_generator/link_set.rb:103-111 | after a rollover the link goes alone into the next file, which leaves the coordinator packed |
| Packing.PackRollover | lib/sitemap_generator/link_set.rb:103-111 | when the current file holds 50,000 links, the next small link rolls over into a new file |
| Packing.PackStep | lib/sitemap_generator/link_set.rb:103-111 | one more small link keeps the coordinator packed while the index has room |
| Packing.PackedRun | lib/sitemap_generator/link_set.rb:103-111 | from no files, adding `N` small links (up to 50,000 squared) never raises and uses exactly `ceil(N / 50,000)` files, every rolled-over file full |
| Writer.WriteAfterAddLinks | lib/sitemap_generator/link_set/writer.rb:41-54 | after at most `max_entries` squared links, `write` succeeds and the written files hold every link, in order, with the index last |

## Left out

- LinkSets.FinalizeSitemap: the index records a copy of the current file, not the object
  itself. In the program `sitemap_index.add(sitemap)` records the very object, so after a
  failed write and a later successful `finalize_sitemap!` the recorded list ends with the
  same finalized file twice; the model instead ends with the open copy followed by the
  finalized file. The contract states that a failed write leaves both open.
- Gzip compression, XML serialization, `mkdir_p`, the directory check, `open` and
  `File.mtime`/`lastmod`. A disk write is one step that succeeds or fails, chosen by the
  names in `IndexFiles.Env`.
- `SitemapUrl` and `SitemapIndexUrl`, which produce the XML of each entry. Entries are
  opaque byte strings, and the index's reference to a file comes from
  `IndexFiles.Env.refOf`.
- `SitemapNamer`, the base class files take their names from. It is replaced by an
  injective name supply (`Names.NameSupply`), so the file names do not follow
  `SimpleNamer`'s series.
- `SitemapLocation` is kept only as a key/value record. Path, URL and directory
  resolution, `dup` aliasing between a file and its successor, and the missing-host
  error are not modelled. Its `with` is modelled as an overwrite.
- `ping_search_engines`, `summary`/`stats_summary`, `number_to_human_size`, the `verbose`
  output and the `Time.now` timing. These are network I/O, formatting and clock reads.
- `interpreter.eval` and the user block in `create`. Foreign code runs there, so
  `LinkSets.Create` models `create` with an empty block.
- `group`, which references an undefined block. The index protection the tests expect
  is not implemented by the code either.
- `LinkSet#link_count`, which calls `total_link_count`, a method that is not defined.
- `add_links`, the deprecated positional-argument parsing of `LinkSet.new`, and the
  writer's template `eval`, install/uninstall, `clean_files`, `create_files` and
  `ping_search_engines`.
- The global `Sitemap` instance and the `VERSION` read in `lib/sitemap_generator.rb`.
- LinkSets.New: an explicit `:public_path => nil` is kept as no path, but what
  `SitemapLocation` makes of it (the current directory) is not modelled. An explicit nil
  for `include_root` or `include_index` must be passed as `false`. An explicit nil
  `filename` is not modelled: `sitemap_index` would then name the index `_index`.
- LinkSets.UpdateLocationInfo: "finalized files keep their own locations" holds in the
  model only. In the program `SitemapFile#next` hands its own location hash to the
  successor without copying it, so a file and all its predecessors share one hash.
  `update_location_info` therefore also rewrites the location of every finalized file
  already recorded in the index, and each rollover overwrites their `:filename` key.
- LinkSets.SetFilename: "finalized files keep their names" holds for their `filename`
  attribute only. In the program `filename=` writes `:filename` into the location hash
  that the open file shares with every finalized predecessor, so their locations change
  too.
- `File.join` is modelled as joining with `/`. The collapsing of repeated separators is
  not modelled.
- The legacy writer's file writes never fail in the model. Only the nil-file-name
  error of `write_sitemap` is modelled.
- `filename=` with a nil base, which would fall back to `sitemap` for the open files.
  The base is always a string here.
- Namer.StripGz: its own contract states only that removal never lengthens a string.
  What it does to a trailing `.gz` is proved separately by `Namer.StripTrailingGz`.
- LinkSets.AddFrom: its own contract states only termination and that a current file
  is left. What it computes is proved by the `LinkSets.AddFrom*` lemmas.
- LinkSets.Add: names only the first file rolled over. The names of later rolled-over
  files are not stated, because only an oversize entry causes a second rollover.

## Findings

| source | as written | input that shows it | evidently intended | confidence | as-written member | corrected member |
|---|---|---|---|---|---|---|
| lib/sitemap_generator/sitemap_namer.rb:43-46 | the `.gz`-stripping branch calls the non-destructive `gsub` and drops its result, so the extension never changes | `SimpleNamer.new(:sitemap, :compress => false).to_s` gives `sitemap.xml.gz` | `sitemap.xml`, as the `:compress` documentation at lines 28-30 describes | not executed | Namer.UncompressedNameKeepsGz | Namer.UncompressedNameDropsGz |
| lib/sitemap_generator/builder/sitemap_index_file.rb:25 | `self.filesize = ...` calls a writer that `SitemapFile` never defines (it declares only `attr_reader :filesize`), so the constructor raises NoMethodError | any `SitemapIndexFile.new(...)` | the size is reset to the index wrapper's 296 bytes | not executed | IndexFiles.ConstructorRaises | IndexFiles.New |
| lib/sitemap_generator/link_set.rb:199-201 | `sitemaps_host=` replaces the generated writer and calls `update_location_info` with `and_self => false`, so `@sitemaps_host` is never written | set `sitemaps_host = 'http://s.example.com'` with no file yet (always the case before `create`); the next file takes the `:host` option (nil by default), not the host just set | the host is used for every sitemap file, as the comment at lines 196-198 says | not executed | LinkSets.SitemapsHostLostAsWritten | LinkSets.SitemapsHostReachesNewFiles |
| lib/sitemap_generator/link_set.rb:210-224 | a new file's location takes the host `@sitemaps_host \|\| @host`, and `@host` is only the `:host` option, so a host given later by `default_host=` never reaches the files | `default_host = 'http://one.com'` with no `:host` option: the coordinator's location has the host, a new sitemap file has none | the file gets the coordinator's host, as spec/sitemap_generator/link_set_spec.rb:104-108 expects | not executed; `SitemapLocation#with` is modelled as a plain overwrite of the host | LinkSets.DefaultHostLostAsWritten | LinkSets.DefaultHostReachesNewFiles |
| lib/sitemap_generator/link_set.rb:204-207 | `filename=` passes the new base to `update_sitemap_info` (lines 251-254), which sets it on the open index too, so the index loses its `_index` suffix | set `filename = :x` while both a sitemap file and the index are open: both are named from base `x`, so the open sitemap file and the index both take the first name of `SitemapNamer.new(:x)` | the index keeps the `_index` suffix, as `sitemap_index` at lines 218-224 names it | not executed | LinkSets.FilenameCollidesAsWritten | LinkSets.FilenameKeepsNamesApart |

=== FILE: common.dfy ===
/** Vocabulary shared by every part of the sitemap writer: the per-file limits of the
    Sitemaps XML protocol 0.9, serialized entries, and the errors the writer raises. */
module Common {

  /** One octet of a serialized document. */
  newtype byte = x: int | 0 <= x < 256

  /** The serialized XML of one `<url>` or `<sitemap>` element. The XML text itself is
      produced by classes outside this model; only its bytes (and so its length) matter. */
  type Entry = seq<byte>

  /** Most `<url>` elements one sitemap document may hold. */
  const MAX_SITEMAP_LINKS: nat := 50_000

  /** First uncompressed document size, in bytes, that is no longer allowed (10 MiB). */
  const MAX_SITEMAP_FILESIZE: nat := 10_485_760

  /** Batch size of the legacy writer (`SitemapGenerator::MAX_ENTRIES`). */
  const MAX_ENTRIES: nat := 50_000

  datatype Option<T> = None | Some(value: T) {
    /** The value, or `default` where Ruby would see `nil`. */
    function GetOr(default: T): T {
      match this
      case Some(v) => v
      case None => default
    }

    /** Ruby's `a || b` on two possibly-nil values. */
    function OrElse(other: Option<T>): Option<T> {
      if Some? then this else other
    }
  }

  /** The exceptions the modelled code raises. */
  datatype Error =
    | SitemapFull        // SitemapGenerator::SitemapFullError
    | SitemapFinalized   // SitemapGenerator::SitemapFinalizedError
    | WriteFailed        // the directory check, `open` or the gzip stream raised
    | FrozenObject       // a writer method ran on a frozen (finalized) object
    | SeriesStart        // NameError "Already at the start of the series"
    | MissingSetter      // NoMethodError: a setter that was never defined
    | NilFilename        // TypeError: `File.join` handed a nil file name

  /** Whether an operation returned normally or raised. */
  datatype Outcome = Ok | Failed(error: Error)

  /** A value, or the exception raised instead of computing it. */
  datatype Result<T> = Success(value: T) | Failure(error: Error)

  /** Total byte length of a sequence of entries. */
  function TotalBytes(es: seq<Entry>): nat {
    if es == [] then 0 else |es[0]| + TotalBytes(es[1..])
  }

  /** Appending an entry adds exactly its length to the total. */
  lemma {:induction false} TotalBytesAppend(es: seq<Entry>, e: Entry)
    ensures TotalBytes(es + [e]) == TotalBytes(es) + |e|
  {
    if es == [] {
      assert es + [e] == [e];
      assert [e][1..] == [];
    } else {
      assert (es + [e])[1..] == es[1..] + [e];
      TotalBytesAppend(es[1..], e);
    }
  }

  /** Two strings that agree once the same prefix and suffix are put around them are
      equal. */
  lemma CancelAffixes(p: string, x: string, y: string, q: string)
    requires p + x + q == p + y + q
    ensures x == y
  {
    assert |x| == |y|;
    assert x == (p + x + q)[|p|..|p| + |x|];
    assert y == (p + y + q)[|p|..|p| + |y|];
  }
}

=== FILE: decimal.dfy ===
/** Decimal rendering of integers, as Ruby's string interpolation `"#{n}"` produces it,
    with the parse that inverts it. File names in both namers embed such a rendering,
    and name uniqueness rests on the rendering being injective. */
module Decimal {

  predicate IsDigit(c: char) {
    '0' <= c <= '9'
  }

  function DigitChar(d: nat): (c: char)
    requires d < 10
    ensures IsDigit(c)
  {
    (48 + d) as char
  }

  function DigitValue(c: char): (d: nat)
    requires IsDigit(c)
    ensures d < 10
  {
    c as nat - 48
  }

  /** Decimal digits of `n`, most significant first, without leading zeros. */
  function NatToString(n: nat): (s: string)
    ensures |s| >= 1
    ensures forall i :: 0 <= i < |s| ==> IsDigit(s[i])
    ensures n >= 10 ==> |s| >= 2
  {
    if n < 10 then [DigitChar(n)] else NatToString(n / 10) + [DigitChar(n % 10)]
  }

  /** Value of a non-empty string of decimal digits. */
  function ParseNat(s: string): (n: nat)
    requires |s| >= 1
    requires forall i :: 0 <= i < |s| ==> IsDigit(s[i])
  {
    if |s| == 1 then DigitValue(s[0])
    else ParseNat(s[..|s| - 1]) * 10 + DigitValue(s[|s| - 1])
  }

  /** Parsing a rendering gives the number back. */
  lemma {:induction false} ParseNatToString(n: nat)
    ensures ParseNat(NatToString(n)) == n
  {
    if n >= 10 {
      var s := NatToString(n);
      assert s[..|s| - 1] == NatToString(n / 10);
      ParseNatToString(n / 10);
    }
  }

  /** Distinct numbers have distinct renderings. */
  lemma NatToStringInjective(a: nat, b: nat)
    requires NatToString(a) == NatToString(b)
    ensures a == b
  {
    ParseNatToString(a);
    ParseNatToString(b);
  }

  /** Rendering of any integer: a minus sign before the digits of its magnitude. */
  function IntToString(i: int): (s: string)
    ensures |s| >= 1
    ensures (i < 0) <==> (s[0] == '-')
  {
    if i < 0 then "-" + NatToString(-i) else NatToString(i)
  }

  /** Distinct integers have distinct renderings. */
  lemma IntToStringInjective(a: int, b: int)
    requires IntToString(a) == IntToString(b)
    ensures a == b
  {
    if a < 0 {
      assert IntToString(a)[1..] == NatToString(-a);
      assert IntToString(b)[1..] == NatToString(-b);
      NatToStringInjective(-a, -b);
    } else {
      NatToStringInjective(a, b);
    }
  }
}

=== FILE: link_set.dfy ===
/** `SitemapGenerator::LinkSet`: the coordinator. It owns the current sitemap file and the
    sitemap index, routes each link to the current file, rolls over to a freshly named
    file when the current one is full, and at the end finalizes the current file into
    the index and the index itself. Both files are created lazily, on first use. */
module LinkSets {
  import opened Common
  import opened Names
  import SitemapFiles
  import IndexFiles

  type SitemapFile = SitemapFiles.SitemapFile
  type IndexFile = IndexFiles.IndexFile
  type Env = IndexFiles.Env

  /** The options hash handed to `LinkSet.new`; `None` is a key that was left out. An
      explicit `:public_path => nil` is `Some(None)`: `reverse_merge!` fills only absent
      keys, so it stays nil. */
  datatype Options = Options(
    includeRoot: Option<bool>,
    includeIndex: Option<bool>,
    filename: Option<string>,
    publicPath: Option<Option<string>>,
    sitemapsPath: Option<string>,
    sitemapsHost: Option<string>,
    defaultHost: Option<string>,
    host: Option<string>)

  const NoOptions: Options := Options(None, None, None, None, None, None, None, None)

  /** The coordinator's state: its options as instance variables, its own location,
      and the lazily created current sitemap and index. */
  datatype LinkSet = LinkSet(
    includeRoot: bool,
    includeIndex: bool,
    filename: string,
    publicPath: Option<string>,
    sitemapsPath: Option<string>,
    sitemapsHost: Option<string>,
    defaultHost: Option<string>,
    host: Option<string>,
    location: Location,
    sitemap: Option<SitemapFile>,
    index: Option<IndexFile>)

  /** `LinkSet.new(options)`: every option left out takes its default (root and index
      links included, base name `sitemap`, `public/` under the application root, no
      sub-path, no hosts); the location is built from the paths and the default host;
      no file exists yet. */
  function New(options: Options, appPublicPath: string): (ls: LinkSet)
    ensures ls.includeRoot == options.includeRoot.GetOr(true)
    ensures ls.includeIndex == options.includeIndex.GetOr(true)
    ensures ls.filename == options.filename.GetOr(SitemapFiles.DEFAULT_BASE)
    ensures options.publicPath.None? ==> ls.publicPath == Some(appPublicPath)
    ensures options.publicPath.Some? ==> ls.publicPath == options.publicPath.value
    ensures ls.sitemapsPath == options.sitemapsPath && ls.sitemapsHost == options.sitemapsHost
    ensures ls.defaultHost == options.defaultHost && ls.host == options.host
    ensures ls.location == Location(ls.publicPath, ls.sitemapsPath, ls.defaultHost, None)
    ensures ls.sitemap.None? && ls.index.None?
    ensures Consistent(ls)
  {
    var publicPath := options.publicPath.GetOr(Some(appPublicPath));
    LinkSet(
      options.includeRoot.GetOr(true),
      options.includeIndex.GetOr(true),
      options.filename.GetOr(SitemapFiles.DEFAULT_BASE),
      publicPath,
      options.sitemapsPath,
      options.sitemapsHost,
      options.defaultHost,
      options.host,
      Location(publicPath, options.sitemapsPath, options.defaultHost, None),
      None,
      None)
  }

  /** With no options at all, both convenience links are on, the base is `sitemap`, and
      no sub-path or host is set. */
  lemma Defaults(appPublicPath: string)
    ensures var ls := New(NoOptions, appPublicPath);
      && ls.includeRoot && ls.includeIndex && ls.filename == "sitemap"
      && ls.sitemapsPath.None? && ls.sitemapsHost.None? && ls.defaultHost.None?
      && ls.publicPath == Some(appPublicPath)
  {
  }

  /** The location `sitemap` and `sitemap_index` AS WRITTEN start a new file from: the
      coordinator's own, with the host replaced by `@sitemaps_host || @host`. `@host` is
      set only by a `:host` option; `default_host` lives in the coordinator's location. */
  function FileLocationAsWritten(ls: LinkSet): Location {
    ls.location.(host := ls.sitemapsHost.OrElse(ls.host))
  }

  /** The location every new file starts from, as evidently intended: the coordinator's
      own, with the sitemaps host in place of the default host when one is set. */
  function FileLocation(ls: LinkSet): (r: Location)
    ensures r.(host := ls.location.host) == ls.location
    ensures ls.sitemapsHost.Some? ==> r.host == ls.sitemapsHost
    ensures ls.sitemapsHost.None? ==> r == ls.location
  {
    ls.location.(host := ls.sitemapsHost.OrElse(ls.location.host))
  }

  /** The fields that only the setters and `new` write. */
  predicate SameConfig(a: LinkSet, b: LinkSet) {
    a.(sitemap := None, index := None) == b.(sitemap := None, index := None)
  }

  /** The lazy `sitemap` reader: the current file, created on first use. */
  function WithSitemap(ls: LinkSet): (r: LinkSet)
    ensures r.sitemap.Some? && r.index == ls.index && SameConfig(r, ls)
    ensures ls.sitemap.Some? ==> r == ls
    ensures ls.sitemap.None? ==>
      r.sitemap.value == SitemapFiles.New(FileLocation(ls), Some(ls.filename), None)
    ensures Consistent(ls) ==> Consistent(r)
  {
    if ls.sitemap.Some? then ls
    else ls.(sitemap := Some(SitemapFiles.New(FileLocation(ls), Some(ls.filename), None)))
  }

  /** The lazy `sitemap_index` reader: the index, created on first use and named after
      the base with `_index` appended. */
  function WithIndex(ls: LinkSet): (r: LinkSet)
    ensures r.index.Some? && r.sitemap == ls.sitemap && SameConfig(r, ls)
    ensures ls.index.Some? ==> r == ls
    ensures ls.index.None? ==>
      r.index.value == IndexFiles.New(FileLocation(ls), Some(ls.filename + "_index"))
    ensures Consistent(ls) ==> Consistent(r)
  {
    if ls.index.Some? then ls
    else ls.(index := Some(IndexFiles.New(FileLocation(ls), Some(ls.filename + "_index"))))
  }

  /** The files recorded in the index so far (none before the index exists). */
  function Sitemaps(ls: LinkSet): seq<SitemapFile> {
    if ls.index.Some? then ls.index.value.sitemaps else []
  }

  /** The number of references the index holds (none before it exists). */
  function IndexCount(ls: LinkSet): nat {
    if ls.index.Some? then ls.index.value.file.linkCount else 0
  }

  /** Every file in `files` is finalized. */
  predicate AllFinalized(files: seq<SitemapFile>) {
    forall i :: 0 <= i < |files| ==> files[i].finalized
  }

  /** Every file in `files` obeys the protocol's limits. */
  predicate AllValid(files: seq<SitemapFile>) {
    forall i :: 0 <= i < |files| ==> SitemapFiles.Valid(files[i])
  }

  /** The current file obeys the limits and is a urlset document. */
  predicate CurrentOk(ls: LinkSet) {
    ls.sitemap.Some? ==>
      SitemapFiles.Valid(ls.sitemap.value)
      && (ls.sitemap.value.finalized || ls.sitemap.value.wrapper == SitemapFiles.Urlset)
  }

  /** The index obeys the limits, refers to exactly the files it records, and all of
      them are finalized and obey the limits too. */
  predicate IndexOk(ls: LinkSet) {
    ls.index.Some? ==>
      IndexFiles.Valid(ls.index.value)
      && ls.index.value.file.linkCount == |ls.index.value.sitemaps|
      && AllFinalized(ls.index.value.sitemaps)
      && AllValid(ls.index.value.sitemaps)
  }

  /** A finalized current file is the one the index recorded last. */
  predicate FinalizedIsRecorded(ls: LinkSet) {
    ls.sitemap.Some? && ls.sitemap.value.finalized ==>
      |Sitemaps(ls)| > 0 && Sitemaps(ls)[|Sitemaps(ls)| - 1] == ls.sitemap.value
  }

  /** The state the coordinator keeps when every step returns normally: both files obey
      their limits; the current file is a urlset document; the index refers to exactly
      the files it records, all of them finalized and within the limits; and a finalized current file is the
      one the index recorded last. */
  predicate Consistent(ls: LinkSet) {
    CurrentOk(ls) && IndexOk(ls) && FinalizedIsRecorded(ls)
  }

  /** In a consistent state the current file is finalized exactly when it is the last
      file the index recorded. */
  lemma FinalizedIffRecordedLast(ls: LinkSet)
    requires Consistent(ls) && ls.sitemap.Some? && ls.index.Some?
    ensures ls.sitemap.value.finalized <==>
      (|Sitemaps(ls)| > 0 && Sitemaps(ls)[|Sitemaps(ls)| - 1] == ls.sitemap.value)
  {
    if |Sitemaps(ls)| > 0 && Sitemaps(ls)[|Sitemaps(ls)| - 1] == ls.sitemap.value {
      assert AllFinalized(ls.index.value.sitemaps);
      assert ls.index.value.sitemaps[|Sitemaps(ls)| - 1].finalized;
    }
  }

  /** `finalize_sitemap!`: nothing to do if the current file is finalized; otherwise
      the index records and finalizes it. The current file and the recorded one are the
      same object, so the current file is whatever the index recorded. */
  function FinalizeSitemap(ls: LinkSet, env: Env): (r: (LinkSet, Outcome))
    ensures SameConfig(r.0, ls)
    ensures r.0.sitemap.Some?
    ensures r.0.sitemap.value.linkCount == WithSitemap(ls).sitemap.value.linkCount
    // the guard: a finalized current file makes this a no-op
    ensures WithSitemap(ls).sitemap.value.finalized ==> r == (WithSitemap(ls), Ok)
    // otherwise the current file is recorded, whether or not anything raises after
    ensures !WithSitemap(ls).sitemap.value.finalized ==>
      && r.0.index.Some?
      && Sitemaps(r.0) == Sitemaps(ls) + [r.0.sitemap.value]
      && r.0.sitemap.value.name == WithSitemap(ls).sitemap.value.name
    ensures !WithSitemap(ls).sitemap.value.finalized && r.1.Ok? ==>
      IndexCount(ls) < MAX_SITEMAP_LINKS && IndexCount(r.0) == IndexCount(ls) + 1
    ensures r.1.Ok? ==> r.0.sitemap.value.finalized
    // a failed write leaves the current file, and its recorded copy, open: a later
    // call records it once more
    ensures !WithSitemap(ls).sitemap.value.finalized && !IndexFiles.WriteOk(env, WithSitemap(ls).sitemap.value) ==>
      r.1 == Failed(WriteFailed) && !r.0.sitemap.value.finalized
      && r.0.sitemap.value == WithSitemap(ls).sitemap.value
    ensures !r.1.Ok? ==> IndexCount(r.0) == IndexCount(ls)
    ensures Sitemaps(ls) <= Sitemaps(r.0)
    ensures Consistent(ls) && r.1.Ok? ==> Consistent(r.0)
  {
    var ls1 := WithSitemap(ls);
    var current := ls1.sitemap.value;
    if current.finalized then (ls1, Ok)
    else
      var ls2 := WithIndex(ls1);
      var out := IndexFiles.Add(ls2.index.value, IndexFiles.FileRef(current), env);
      var recorded := out.index.sitemaps[|out.index.sitemaps| - 1];
      (ls2.(index := Some(out.index), sitemap := Some(recorded)), out.status)
  }

  /** `finalize_sitemap_index!`: nothing to do if the index is finalized; otherwise the
      index is written and finalized. */
  function FinalizeIndex(ls: LinkSet, env: Env): (r: (LinkSet, Outcome))
    ensures SameConfig(r.0, ls) && r.0.sitemap == ls.sitemap
    ensures r.0.index.Some? && r.0.index.value.sitemaps == Sitemaps(ls)
    ensures r.0.index.value.file.linkCount == IndexCount(ls)
    ensures WithIndex(ls).index.value.file.finalized ==> r == (WithIndex(ls), Ok)
    ensures r.1.Ok? <==> r.0.index.value.file.finalized
    ensures Consistent(ls) ==> Consistent(r.0)
  {
    var ls1 := WithIndex(ls);
    var idx := ls1.index.value;
    if idx.file.finalized then (ls1, Ok)
    else
      match SitemapFiles.Finalize(idx.file, IndexFiles.WriteOk(env, idx.file))
      case Failure(err) => (ls1, Failed(err))
      case Success(g) => (ls1.(index := Some(idx.(file := g))), Ok)
  }

  /** `finalize!`: the current file into the index, then the index itself. */
  function Finalize(ls: LinkSet, env: Env): (r: (LinkSet, Outcome))
    ensures SameConfig(r.0, ls) && r.0.sitemap.Some?
    ensures r.0.sitemap.value.linkCount == WithSitemap(ls).sitemap.value.linkCount
    ensures Sitemaps(ls) <= Sitemaps(r.0)
    ensures r.1.Ok? ==>
      && r.0.sitemap.value.finalized
      && r.0.index.Some? && r.0.index.value.file.finalized
    ensures r.1.Ok? && !WithSitemap(ls).sitemap.value.finalized ==>
      Sitemaps(r.0) == Sitemaps(ls) + [r.0.sitemap.value]
    ensures Consistent(ls) && r.1.Ok? ==>
      && Consistent(r.0)
      && Sitemaps(r.0)[|Sitemaps(r.0)| - 1] == r.0.sitemap.value
  {
    var s := FinalizeSitemap(ls, env);
    if s.1.Failed? then s else FinalizeIndex(s.0, env)
  }

  /** A second `finalize!` after one that returned normally changes nothing and raises
      nothing. */
  lemma FinalizeIdempotent(ls: LinkSet, env: Env)
    requires Finalize(ls, env).1.Ok?
    ensures Finalize(Finalize(ls, env).0, env) == (Finalize(ls, env).0, Ok)
  {
  }

  /** A file with one location key overwritten. */
  function Relocated(f: SitemapFile, key: LocationKey, value: Option<string>): SitemapFile {
    f.(location := f.location.Merge(key, value))
  }

  /** `update_location_info(attribute, value, and_self)`: the coordinator's own location
      (when `and_self`) and the locations of the index and current file, when they exist
      and are still open, get `key` overwritten. No file is created. */
  function UpdateLocationInfo(ls: LinkSet, key: LocationKey, value: Option<string>, andSelf: bool): (r: LinkSet)
    ensures r.location == (if andSelf then ls.location.Merge(key, value) else ls.location)
    ensures r.(location := ls.location, sitemap := None, index := None) == ls.(sitemap := None, index := None)
    ensures ls.sitemap.None? ==> r.sitemap.None?
    ensures ls.sitemap.Some? && ls.sitemap.value.finalized ==> r.sitemap == ls.sitemap
    ensures ls.sitemap.Some? && !ls.sitemap.value.finalized ==>
      r.sitemap == Some(Relocated(ls.sitemap.value, key, value))
    ensures ls.index.None? ==> r.index.None?
    ensures ls.index.Some? && ls.index.value.file.finalized ==> r.index == ls.index
    ensures ls.index.Some? && !ls.index.value.file.finalized ==>
      r.index == Some(ls.index.value.(file := Relocated(ls.index.value.file, key, value)))
    ensures Sitemaps(r) == Sitemaps(ls) && IndexCount(r) == IndexCount(ls)
    ensures Consistent(ls) ==> Consistent(r)
  {
    var location := if andSelf then ls.location.Merge(key, value) else ls.location;
    var index :=
      if ls.index.Some? && !ls.index.value.file.finalized
      then Some(ls.index.value.(file := Relocated(ls.index.value.file, key, value)))
      else ls.index;
    var sitemap :=
      if ls.sitemap.Some? && !ls.sitemap.value.finalized
      then Some(Relocated(ls.sitemap.value, key, value))
      else ls.sitemap;
    ls.(location := location, index := index, sitemap := sitemap)
  }

  /** `default_host=`: the host key, on the coordinator's location and the open files.
      The `default_host` attribute itself is not written. */
  function SetDefaultHost(ls: LinkSet, value: Option<string>): (r: LinkSet)
    ensures r.location.host == value
    ensures r.defaultHost == ls.defaultHost
    ensures ls.sitemap.Some? && !ls.sitemap.value.finalized ==> r.sitemap.Some? && r.sitemap.value.location.host == value
    ensures ls.index.Some? && !ls.index.value.file.finalized ==> r.index.Some? && r.index.value.file.location.host == value
  {
    UpdateLocationInfo(ls, Host, value, true)
  }

  /** `public_path=`: the public directory, on the coordinator's location and the open
      files. The `public_path` attribute itself is not written. */
  function SetPublicPath(ls: LinkSet, value: Option<string>): (r: LinkSet)
    ensures r.location.publicPath == value
    ensures r.publicPath == ls.publicPath
    ensures ls.sitemap.Some? && !ls.sitemap.value.finalized ==> r.sitemap.Some? && r.sitemap.value.location.publicPath == value
    ensures ls.index.Some? && !ls.index.value.file.finalized ==> r.index.Some? && r.index.value.file.location.publicPath == value
  {
    UpdateLocationInfo(ls, PublicPath, value, true)
  }

  /** `sitemaps_path=`: the sub-path, on the coordinator's location and the open files.
      The `sitemaps_path` attribute itself is not written. */
  function SetSitemapsPath(ls: LinkSet, value: Option<string>): (r: LinkSet)
    ensures r.location.sitemapsPath == value
    ensures r.sitemapsPath == ls.sitemapsPath
    ensures ls.sitemap.Some? && !ls.sitemap.value.finalized ==> r.sitemap.Some? && r.sitemap.value.location.sitemapsPath == value
    ensures ls.index.Some? && !ls.index.value.file.finalized ==> r.index.Some? && r.index.value.file.location.sitemapsPath == value
  {
    UpdateLocationInfo(ls, SitemapsPath, value, true)
  }

  /** The counterexample for the lazy readers as written: after `default_host=` the
      coordinator's location carries the host, but a new file takes `@host`, which only a
      `:host` option sets, so without one (and without a sitemaps host) it has no host. */
  lemma DefaultHostLostAsWritten(ls: LinkSet, h: string)
    requires ls.sitemapsHost.None? && ls.host.None?
    ensures SetDefaultHost(ls, Some(h)).location.host == Some(h)
    ensures FileLocationAsWritten(SetDefaultHost(ls, Some(h))).host == None
  {
  }

  /** With the corrected location, a host set by `default_host=` before the files exist
      reaches both the current file and the index created afterwards. */
  lemma DefaultHostReachesNewFiles(ls: LinkSet, h: string)
    requires ls.sitemap.None? && ls.index.None? && ls.sitemapsHost.None?
    ensures WithSitemap(SetDefaultHost(ls, Some(h))).sitemap.value.location.host == Some(h)
    ensures WithIndex(SetDefaultHost(ls, Some(h))).index.value.file.location.host == Some(h)
  {
  }

  /** A path set before the current file exists reaches the file created next, because
      new files start from the coordinator's location. */
  lemma PathsReachNewFiles(ls: LinkSet, value: Option<string>)
    requires ls.sitemap.None?
    ensures WithSitemap(SetPublicPath(ls, value)).sitemap.value.location.publicPath == value
    ensures WithSitemap(SetSitemapsPath(ls, value)).sitemap.value.location.sitemapsPath == value
  {
  }

  /** `sitemaps_host=` AS WRITTEN: the method defined in the class replaces the writer
      `attr_accessor` would generate, and it calls `update_location_info` with
      `and_self => false`, so only the open files' locations change; the
      `sitemaps_host` attribute, which new files take their host from, is not written. */
  function SetSitemapsHostAsWritten(ls: LinkSet, value: Option<string>): (r: LinkSet)
    ensures r.sitemapsHost == ls.sitemapsHost && r.location == ls.location
    ensures ls.sitemap.Some? && !ls.sitemap.value.finalized ==> r.sitemap.Some? && r.sitemap.value.location.host == value
    ensures ls.index.Some? && !ls.index.value.file.finalized ==> r.index.Some? && r.index.value.file.location.host == value
  {
    UpdateLocationInfo(ls, Host, value, false)
  }

  /** The counterexample: with no file yet, the host set is lost. As written, the file
      created next takes its host from the `:host` option (`@sitemaps_host || @host`,
      nil by default); even under the corrected `FileLocation` it keeps the
      coordinator's host. Either way it is not the host just set. */
  lemma SitemapsHostLostAsWritten(ls: LinkSet, h: string)
    requires ls.sitemap.None? && ls.sitemapsHost.None? && ls.location.host != Some(h)
    ensures FileLocationAsWritten(SetSitemapsHostAsWritten(ls, Some(h))).host == ls.host
    ensures ls.host != Some(h) ==> FileLocationAsWritten(SetSitemapsHostAsWritten(ls, Some(h))).host != Some(h)
    ensures WithSitemap(SetSitemapsHostAsWritten(ls, Some(h))).sitemap.value.location.host == ls.location.host
    ensures WithSitemap(SetSitemapsHostAsWritten(ls, Some(h))).sitemap.value.location.host != Some(h)
  {
  }

  /** `sitemaps_host=` as documented: the host used in links to the sitemap files, for
      the open files and for every file created afterwards. */
  function SetSitemapsHost(ls: LinkSet, value: Option<string>): (r: LinkSet)
    ensures r.sitemapsHost == value && r.location == ls.location
    ensures ls.sitemap.Some? && !ls.sitemap.value.finalized ==> r.sitemap.Some? && r.sitemap.value.location.host == value
    ensures ls.index.Some? && !ls.index.value.file.finalized ==> r.index.Some? && r.index.value.file.location.host == value
    ensures Consistent(ls) ==> Consistent(r)
  {
    UpdateLocationInfo(ls, Host, value, false).(sitemapsHost := value)
  }

  /** With the corrected setter the host reaches files created after the call. */
  lemma SitemapsHostReachesNewFiles(ls: LinkSet, h: string)
    requires ls.sitemap.None?
    ensures WithSitemap(SetSitemapsHost(ls, Some(h))).sitemap.value.location.host == Some(h)
  {
  }

  /** A file renamed by `filename=`, when it is open (`update_sitemap_info` skips
      finalized files, so the frozen-object error cannot arise). */
  function Renamed(f: SitemapFile, base: string): SitemapFile {
    match SitemapFiles.SetFilename(f, base)
    case Success(g) => g
    case Failure(_) => f
  }

  /** The base is stored, and the index and current file, when they exist and are open,
      are renamed with fresh namers over `indexBase` and `base`. */
  function Rename(ls: LinkSet, base: string, indexBase: string): LinkSet {
    var index :=
      if ls.index.Some? && !ls.index.value.file.finalized
      then Some(ls.index.value.(file := Renamed(ls.index.value.file, indexBase)))
      else ls.index;
    var sitemap :=
      if ls.sitemap.Some? && !ls.sitemap.value.finalized
      then Some(Renamed(ls.sitemap.value, base))
      else ls.sitemap;
    ls.(filename := base, index := index, sitemap := sitemap)
  }

  /** `filename=` AS WRITTEN: `update_sitemap_info` hands the same base to the index's
      and the current file's `filename=`, so an open index is renamed after `base`
      itself, not after `base_index` as the lazy reader names a new index. Everything
      else is as the corrected setter does it. */
  function SetFilenameAsWritten(ls: LinkSet, base: string): (r: LinkSet)
    ensures r.(index := SetFilename(ls, base).index) == SetFilename(ls, base)
    ensures ls.index.Some? && !ls.index.value.file.finalized ==>
      r.index.Some? && r.index.value.file.name == FileName(base, 0)
  {
    Rename(ls, base, base)
  }

  /** The counterexample: as written, `filename=` with both files open gives the index
      and the current sitemap the same file name, so one overwrites the other on disk. */
  lemma FilenameCollidesAsWritten(ls: LinkSet, base: string)
    requires ls.sitemap.Some? && !ls.sitemap.value.finalized
    requires ls.index.Some? && !ls.index.value.file.finalized
    ensures SetFilenameAsWritten(ls, base).sitemap.value.name
         == SetFilenameAsWritten(ls, base).index.value.file.name
  {
  }

  /** `filename=`: the base is stored, and the index and current file, when they exist
      and are open, are renamed with a fresh namer over `base_index` and `base`, the
      bases the lazy readers use. Files created later are named after it. */
  function SetFilename(ls: LinkSet, base: string): (r: LinkSet)
    ensures r.filename == base
    ensures r.(filename := ls.filename, sitemap := None, index := None) == ls.(sitemap := None, index := None)
    ensures ls.sitemap.None? ==> r.sitemap.None?
    ensures ls.sitemap.Some? && ls.sitemap.value.finalized ==> r.sitemap == ls.sitemap
    ensures ls.sitemap.Some? && !ls.sitemap.value.finalized ==> r.sitemap == Some(Renamed(ls.sitemap.value, base))
    ensures ls.sitemap.Some? && !ls.sitemap.value.finalized ==>
      r.sitemap.Some? && r.sitemap.value.name == FileName(base, 0) && r.sitemap.value.content == ls.sitemap.value.content
    ensures ls.index.None? ==> r.index.None?
    ensures ls.index.Some? && ls.index.value.file.finalized ==> r.index == ls.index
    ensures ls.index.Some? && !ls.index.value.file.finalized ==>
      r.index.Some? && r.index.value.file.name == FileName(base + "_index", 0)
      && r.index.value.sitemaps == ls.index.value.sitemaps
    ensures Sitemaps(r) == Sitemaps(ls) && IndexCount(r) == IndexCount(ls)
    ensures Consistent(ls) ==> Consistent(r)
  {
    Rename(ls, base, base + "_index")
  }

  /** With the corrected setter the open index and current file never share a name. */
  lemma FilenameKeepsNamesApart(ls: LinkSet, base: string)
    requires ls.sitemap.Some? && !ls.sitemap.value.finalized
    requires ls.index.Some? && !ls.index.value.file.finalized
    ensures SetFilename(ls, base).sitemap.value.name != SetFilename(ls, base).index.value.file.name
  {
    assert |base + "_index"| != |base|;
  }

  /** Files created after `filename=` are named after the new base: the first sitemap
      `base`, the index `base_index`. */
  lemma FilenameNamesNewFiles(ls: LinkSet, base: string)
    requires ls.sitemap.None? && ls.index.None?
    ensures WithSitemap(SetFilename(ls, base)).sitemap.value.name == FileName(base, 0)
    ensures WithIndex(SetFilename(ls, base)).index.value.file.name == FileName(base + "_index", 0)
  {
  }

  /** Room left in the index, in references. */
  function IndexRoom(ls: LinkSet): nat {
    if IndexCount(ls) < MAX_SITEMAP_LINKS then MAX_SITEMAP_LINKS - IndexCount(ls) else 0
  }

  /** The rollover loop's variant: every retry after Full records a file in the index,
      using up a reference of room; every retry after Finalized replaces a finalized
      current file by an open one. */
  function RolloverMeasure(ls: LinkSet): nat
    requires ls.sitemap.Some?
  {
    2 * IndexRoom(ls) + (if ls.sitemap.value.finalized then 1 else 0)
  }

  /** A file as `next` leaves it: open, empty, and as large as its wrapper. */
  predicate Fresh(f: SitemapFile) {
    !f.finalized && f.linkCount == 0 && f.content == [] && f.filesize == SitemapFiles.URLSET_WRAPPER_BYTES
  }

  /** The file the first attempt in `add` actually writes to: the current one, or its
      successor when the current one is already finalized. */
  function FirstOpen(f: SitemapFile): SitemapFile {
    if f.finalized then SitemapFiles.Next(f) else f
  }

  /** `@sitemap = sitemap.next`: the current file replaced by its successor. */
  function ReplaceCurrent(ls: LinkSet): (r: LinkSet)
    requires ls.sitemap.Some?
    ensures r.sitemap == Some(SitemapFiles.Next(ls.sitemap.value)) && Fresh(r.sitemap.value)
    ensures r.index == ls.index && SameConfig(r, ls)
    ensures Consistent(ls) ==> Consistent(r)
  {
    ls.(sitemap := Some(SitemapFiles.Next(ls.sitemap.value)))
  }

  /** How one attempt of `add` ended: the link was stored; the current file was
      finalized and replaced by its successor (rescue of SitemapFinalizedError); the
      current file was full and has been finalized into the index (rescue of
      SitemapFullError); or an error escaped the rescue. */
  datatype AttemptKind = Stored | Replaced | RolledOver | Raised(error: Error)

  datatype Attempt = Attempt(ls: LinkSet, kind: AttemptKind)

  /** One pass through the body of `add` and its two rescue clauses. */
  function TryAdd(ls: LinkSet, e: Entry, env: Env): (r: Attempt)
    requires ls.sitemap.Some?
    ensures SameConfig(r.ls, ls) && r.ls.sitemap.Some?
    ensures Sitemaps(ls) <= Sitemaps(r.ls)
    ensures r.kind.Stored? <==> SitemapFiles.Add(ls.sitemap.value, e).Added?
    ensures r.kind.Stored? ==>
      r.ls.sitemap.value == SitemapFiles.Add(ls.sitemap.value, e).file && Sitemaps(r.ls) == Sitemaps(ls)
    ensures r.kind.Replaced? <==> ls.sitemap.value.finalized
    ensures r.kind.Replaced? ==>
      && r.ls.sitemap.value == SitemapFiles.Next(ls.sitemap.value) && Fresh(r.ls.sitemap.value)
      && r.ls.index == ls.index
      && RolloverMeasure(r.ls) < RolloverMeasure(ls)
    ensures r.kind.RolledOver? ==>
      && Sitemaps(r.ls) == Sitemaps(ls) + [r.ls.sitemap.value]
      && r.ls.sitemap.value.finalized
      && r.ls.sitemap.value.name == ls.sitemap.value.name
      && RolloverMeasure(r.ls) < RolloverMeasure(ls)
    ensures r.kind.RolledOver? || r.kind.Raised? ==>
      SitemapFiles.Add(ls.sitemap.value, e).Full?
    ensures Consistent(ls) && !r.kind.Raised? ==> Consistent(r.ls)
  {
    var current := ls.sitemap.value;
    match SitemapFiles.Add(current, e)
    case Added(f) => Attempt(ls.(sitemap := Some(f)), Stored)
    case Finalized => Attempt(ReplaceCurrent(ls), Replaced)
    case Full =>
      var (ls', st) := FinalizeSitemap(ls, env);
      Attempt(ls', if st.Ok? then RolledOver else Raised(st.error))
  }

  /** `add(link)` from the state `ls`, as a recursion on the retries: the final state,
      whether `add` returned or raised, and how many times it rolled over (retried after
      Full). Each rollover uses up a reference of room in the index, and each retry after
      Finalized opens a file, so the retries end on every input. */
  function AddFrom(ls: LinkSet, e: Entry, env: Env): (r: (LinkSet, Outcome, nat))
    requires ls.sitemap.Some?
    ensures r.0.sitemap.Some?
    decreases RolloverMeasure(ls)
  {
    var a := TryAdd(ls, e, env);
    match a.kind
    case Stored => (a.ls, Ok, 0)
    case Raised(err) => (a.ls, Failed(err), 0)
    case Replaced => AddFrom(a.ls, e, env)
    case RolledOver =>
      var r := AddFrom(a.ls, e, env);
      (r.0, r.1, r.2 + 1)
  }

  /** `add(link)`: append the link to the current file. On Full the current file is
      finalized into the index (`finalize_sitemap!`) and the add retried; that retry
      meets a finalized file, which is replaced by its successor (`sitemap.next`) before
      the next retry. Errors raised by the index or the disk escape. `rollovers` counts
      the retries after Full. */
  method Add(ls0: LinkSet, e: Entry, env: Env) returns (ls: LinkSet, status: Outcome, rollovers: nat)
    ensures (ls, status, rollovers) == AddFrom(WithSitemap(ls0), e, env)
    ensures SameConfig(ls, ls0) && Sitemaps(ls0) <= Sitemaps(ls)
    ensures status.Ok? ==>
      && !ls.sitemap.value.finalized
      && |ls.sitemap.value.content| > 0
      && ls.sitemap.value.content[|ls.sitemap.value.content| - 1] == e
    ensures SitemapFiles.FitsEmpty(e) ==> rollovers <= 1
    ensures Consistent(ls0) && !SitemapFiles.FitsEmpty(e) ==> status.Failed?
    ensures Consistent(ls0) && status.Ok? ==> Consistent(ls)
  {
    ls := WithSitemap(ls0);
    rollovers := 0;
    status := Ok;
    ghost var target := AddFrom(ls, e, env);
    var done := false;
    while !done
      invariant ls.sitemap.Some?
      invariant !done ==> target.0 == AddFrom(ls, e, env).0 && target.1 == AddFrom(ls, e, env).1
      invariant !done ==> target.2 == AddFrom(ls, e, env).2 + rollovers
      invariant done ==> target == (ls, status, rollovers)
      decreases !done, RolloverMeasure(ls)
    {
      var attempt := TryAdd(ls, e, env);
      match attempt.kind
      case Stored =>
        assert AddFrom(ls, e, env) == (attempt.ls, Ok, 0);
        ls, status, done := attempt.ls, Ok, true;
      case Raised(err) =>
        assert AddFrom(ls, e, env) == (attempt.ls, Failed(err), 0);
        ls, status, done := attempt.ls, Failed(err), true;
      case Replaced =>
        assert AddFrom(ls, e, env) == AddFrom(attempt.ls, e, env);
        ls := attempt.ls;
      case RolledOver =>
        assert AddFrom(ls, e, env).2 == AddFrom(attempt.ls, e, env).2 + 1;
        assert AddFrom(ls, e, env).0 == AddFrom(attempt.ls, e, env).0;
        assert AddFrom(ls, e, env).1 == AddFrom(attempt.ls, e, env).1;
        ls, rollovers := attempt.ls, rollovers + 1;
    }
    AddFromSummary(ls0, e, env);
  }

  /** What `add` promises, in terms of the retry recursion from `ls0`. */
  lemma AddFromSummary(ls0: LinkSet, e: Entry, env: Env)
    ensures var r := AddFrom(WithSitemap(ls0), e, env);
      && SameConfig(r.0, ls0) && Sitemaps(ls0) <= Sitemaps(r.0)
      && (r.1.Ok? ==>
            && !r.0.sitemap.value.finalized
            && |r.0.sitemap.value.content| > 0
            && r.0.sitemap.value.content[|r.0.sitemap.value.content| - 1] == e)
      && (SitemapFiles.FitsEmpty(e) ==> r.2 <= 1)
      && (Consistent(ls0) && !SitemapFiles.FitsEmpty(e) ==> r.1.Failed?)
      && (Consistent(ls0) && r.1.Ok? ==> Consistent(r.0))
  {
    var ls := WithSitemap(ls0);
    AddFromKeepsConfig(ls, e, env);
    AddFromStores(ls, e, env);
    AddFromRefusesOversize(ls, e, env);
    if SitemapFiles.FitsEmpty(e) {
      AtMostOneRollover(ls, e, env);
    }
  }

  /** `add` changes only the files, and the index only grows. */
  lemma {:induction false} AddFromKeepsConfig(ls: LinkSet, e: Entry, env: Env)
    requires ls.sitemap.Some?
    ensures SameConfig(AddFrom(ls, e, env).0, ls)
    ensures Sitemaps(ls) <= Sitemaps(AddFrom(ls, e, env).0)
    decreases RolloverMeasure(ls)
  {
    var a := TryAdd(ls, e, env);
    if a.kind.Replaced? || a.kind.RolledOver? {
      AddFromKeepsConfig(a.ls, e, env);
    }
  }

  /** When `add` returns, the link is the last entry of the open current file, and the
      index grew by exactly the files rolled over. */
  lemma {:induction false} AddFromStores(ls: LinkSet, e: Entry, env: Env)
    requires ls.sitemap.Some?
    ensures var r := AddFrom(ls, e, env);
      r.1.Ok? ==>
        && !r.0.sitemap.value.finalized
        && |r.0.sitemap.value.content| > 0
        && r.0.sitemap.value.content[|r.0.sitemap.value.content| - 1] == e
        && |Sitemaps(r.0)| == |Sitemaps(ls)| + r.2
    decreases RolloverMeasure(ls)
  {
    var a := TryAdd(ls, e, env);
    if a.kind.Replaced? || a.kind.RolledOver? {
      AddFromStores(a.ls, e, env);
    }
  }

  /** Where a stored link lands: without a rollover, after the entries of the file it was
      first offered to; after one, alone in a new file. */
  lemma {:induction false} AddFromContent(ls: LinkSet, e: Entry, env: Env)
    requires ls.sitemap.Some?
    ensures var r := AddFrom(ls, e, env);
      && (r.1.Ok? && r.2 == 0 ==> r.0.sitemap.value.content == FirstOpen(ls.sitemap.value).content + [e])
      && (r.1.Ok? && r.2 >= 1 ==> r.0.sitemap.value.content == [e])
    decreases RolloverMeasure(ls)
  {
    var a := TryAdd(ls, e, env);
    if a.kind.Replaced? {
      AddFromContent(a.ls, e, env);
    } else if a.kind.RolledOver? {
      AddFromContent(a.ls, e, env);
      var r := AddFrom(a.ls, e, env);
      assert FirstOpen(a.ls.sitemap.value) == SitemapFiles.Next(a.ls.sitemap.value);
      assert AddFrom(ls, e, env) == (r.0, r.1, r.2 + 1);
    }
  }

  /** The first file `add` rolls over is the one the link was first offered to. */
  lemma {:induction false} AddFromFirstRollover(ls: LinkSet, e: Entry, env: Env)
    requires ls.sitemap.Some?
    ensures var r := AddFrom(ls, e, env);
      r.2 >= 1 ==>
        |Sitemaps(r.0)| > |Sitemaps(ls)|
        && Sitemaps(r.0)[|Sitemaps(ls)|].name == FirstOpen(ls.sitemap.value).name
    decreases RolloverMeasure(ls)
  {
    var a := TryAdd(ls, e, env);
    if a.kind.Replaced? || a.kind.RolledOver? {
      AddFromFirstRollover(a.ls, e, env);
      AddFromKeepsConfig(a.ls, e, env);
    }
  }

  /** An entry that fits an empty file is stored by a finalized or fresh current file
      without a rollover. */
  lemma FreshStores(ls: LinkSet, e: Entry, env: Env)
    requires ls.sitemap.Some? && SitemapFiles.FitsEmpty(e)
    requires ls.sitemap.value.finalized || Fresh(ls.sitemap.value)
    ensures AddFrom(ls, e, env).1.Ok? && AddFrom(ls, e, env).2 == 0
  {
    if ls.sitemap.value.finalized {
      var a := TryAdd(ls, e, env);
      assert a.kind.Replaced?;
      assert TryAdd(a.ls, e, env).kind.Stored?;
    }
  }

  /** An entry that fits an empty file needs at most one rollover. */
  lemma AtMostOneRollover(ls: LinkSet, e: Entry, env: Env)
    requires ls.sitemap.Some? && SitemapFiles.FitsEmpty(e)
    ensures AddFrom(ls, e, env).2 <= 1
  {
    var a := TryAdd(ls, e, env);
    if a.kind.Replaced? || a.kind.RolledOver? {
      FreshStores(a.ls, e, env);
    }
  }

  /** From a consistent state, `add` keeps the state consistent when it returns, and an
      entry too large for an empty file is never stored: the retries roll over until the
      index raises. */
  lemma {:induction false} AddFromRefusesOversize(ls: LinkSet, e: Entry, env: Env)
    requires ls.sitemap.Some?
    ensures Consistent(ls) && !SitemapFiles.FitsEmpty(e) ==> AddFrom(ls, e, env).1.Failed?
    ensures Consistent(ls) && AddFrom(ls, e, env).1.Ok? ==> Consistent(AddFrom(ls, e, env).0)
    decreases RolloverMeasure(ls)
  {
    var a := TryAdd(ls, e, env);
    if a.kind.Replaced? || a.kind.RolledOver? {
      AddFromRefusesOversize(a.ls, e, env);
    } else if a.kind.Stored? && Consistent(ls) {
      assert CurrentOk(ls);
      assert ls.sitemap.value.filesize >= SitemapFiles.URLSET_WRAPPER_BYTES;
    }
  }

  /** `sitemap.add(link)` called directly, outside the rescue of `add`: Full and
      Finalized escape. */
  function AddDirect(ls: LinkSet, e: Entry): (r: (LinkSet, Outcome))
    ensures SameConfig(r.0, ls) && r.0.index == ls.index && r.0.sitemap.Some?
    ensures r.1.Ok? <==> SitemapFiles.Add(WithSitemap(ls).sitemap.value, e).Added?
    ensures r.1.Ok? ==> r.0.sitemap.value == SitemapFiles.Add(WithSitemap(ls).sitemap.value, e).file
    ensures !r.1.Ok? ==> r.0 == WithSitemap(ls)
    ensures Consistent(ls) ==> Consistent(r.0)
  {
    var ls1 := WithSitemap(ls);
    match SitemapFiles.Add(ls1.sitemap.value, e)
    case Added(f) => (ls1.(sitemap := Some(f)), Ok)
    case Full => (ls1, Failed(SitemapFull))
    case Finalized => (ls1, Failed(SitemapFinalized))
  }

  /** Number of convenience links `create` adds. */
  function ConvenienceLinks(ls: LinkSet): nat {
    (if ls.includeRoot then 1 else 0) + (if ls.includeIndex then 1 else 0)
  }

  /** `create` with an empty block: drop the current file and index, add the root link
      if `include_root` and the index's own link if `include_index` (each straight into
      the new current file), then `finalize!`. `rootEntry` and `indexEntry` are the
      serialized forms of those two links. */
  function Create(ls: LinkSet, env: Env, rootEntry: Entry, indexEntry: Entry): (r: (LinkSet, Outcome))
    ensures SameConfig(r.0, ls) && r.0.sitemap.Some?
    ensures SitemapFiles.URLSET_WRAPPER_BYTES + |rootEntry| + |indexEntry| < MAX_SITEMAP_FILESIZE ==>
      r.0.sitemap.value.linkCount == ConvenienceLinks(ls)
    ensures r.1.Ok? ==> r.0.sitemap.value.finalized && r.0.index.Some? && r.0.index.value.file.finalized
    ensures r.1.Ok? ==> Sitemaps(r.0) == [r.0.sitemap.value]
    ensures Consistent(ls) && r.1.Ok? ==> Consistent(r.0)
  {
    var ls0 := ls.(sitemap := None, index := None);
    var withRoot := if ls0.includeRoot then AddDirect(ls0, rootEntry) else (ls0, Ok);
    if withRoot.1.Failed? then withRoot
    else
      var withIndex :=
        if withRoot.0.includeIndex then AddDirect(WithIndex(WithSitemap(withRoot.0)), indexEntry)
        else (withRoot.0, Ok);
      if withIndex.1.Failed? then withIndex
      else Finalize(withIndex.0, env)
  }
}

=== FILE: namer.dfy ===
/** `SitemapGenerator::SimpleNamer`: a cursor over the file-name series
    `sitemap.xml.gz`, `sitemap1.xml.gz`, `sitemap2.xml.gz`, ... The cursor is either at
    the zero marker (the first, un-numbered name) or at a number counting up from
    `start`. */
module Namer {
  import opened Common
  import Decimal

  /** The `:compress` option: `true`, `false` or `:all_but_first`. */
  datatype Compress = Always | Never | AllButFirst

  /** The namer's options. `zero` is the text the zero marker contributes to the first
      name; Ruby's default `nil` marker interpolates as the empty string. */
  datatype Options = Options(extension: string, start: int, zero: string, compress: Compress)

  /** Defaults: extension `.xml.gz`, counting from 1, a nil zero marker, compressing. */
  const DefaultOptions: Options := Options(".xml.gz", 1, "", Always)

  /** The cursor: the zero marker, a value no count equals, or a count. */
  datatype Count = Zero | At(n: int)

  datatype SimpleNamer = SimpleNamer(base: string, options: Options, count: Count)

  /** A new namer stands on the zero marker. */
  function New(base: string, options: Options): (r: SimpleNamer)
    ensures IsStart(r)
    ensures r.base == base && r.options == options
  {
    SimpleNamer(base, options, Zero)
  }

  /** `start?`: the cursor is on the first name, the one carrying the zero marker's
      text rather than a number. */
  function IsStart(n: SimpleNamer): (r: bool)
    ensures r <==> n.count.Zero?
    ensures r ==> NameAsWritten(n) == n.base + n.options.zero + n.options.extension
    ensures !r ==> n.count.At? && NameAsWritten(n) == n.base + Decimal.IntToString(n.count.n) + n.options.extension
  {
    n.count == Zero
  }

  /** The states the operations can reach from a new namer: the zero marker, or a
      count no lower than `start`. */
  predicate Reachable(n: SimpleNamer) {
    match n.count
    case Zero => true
    case At(k) => k >= n.options.start
  }

  /** `reset`: back to the first name. */
  function Reset(n: SimpleNamer): (r: SimpleNamer)
    ensures IsStart(r) && Reachable(r)
    ensures r.base == n.base && r.options == n.options
  {
    n.(count := Zero)
  }

  /** `next`: from the zero marker to `start`, otherwise one further. */
  function Next(n: SimpleNamer): (r: SimpleNamer)
    ensures !IsStart(r)
    ensures r.base == n.base && r.options == n.options
    ensures IsStart(n) ==> r.count == At(n.options.start)
    ensures !IsStart(n) ==> r.count.n == n.count.n + 1
    ensures Reachable(n) ==> Reachable(r)
  {
    match n.count
    case Zero => n.(count := At(n.options.start))
    case At(k) => n.(count := At(k + 1))
  }

  /** `previous`: raises at the zero marker; from `start` or below back to the zero
      marker, otherwise one back. */
  function Previous(n: SimpleNamer): (r: Result<SimpleNamer>)
    ensures IsStart(n) <==> r == Failure(SeriesStart)
    ensures r.Success? ==> r.value.base == n.base && r.value.options == n.options
    ensures r.Success? && n.count.n <= n.options.start ==> IsStart(r.value)
    ensures r.Success? && n.count.n > n.options.start ==> r.value.count == At(n.count.n - 1)
    ensures r.Success? && Reachable(n) ==> Reachable(r.value)
  {
    match n.count
    case Zero => Failure(SeriesStart)
    case At(k) =>
      if k <= n.options.start then Success(n.(count := Zero))
      else Success(n.(count := At(k - 1)))
  }

  /** `previous` undoes `next`. */
  lemma PreviousAfterNext(n: SimpleNamer)
    requires Reachable(n)
    ensures Previous(Next(n)) == Success(n)
  {
  }

  /** `next` undoes a successful `previous`. */
  lemma NextAfterPrevious(n: SimpleNamer)
    requires Reachable(n) && !IsStart(n)
    ensures Previous(n).Success? && Next(Previous(n).value) == n
  {
  }

  /** `n` advanced `k` times. */
  function NextN(n: SimpleNamer, k: nat): SimpleNamer {
    if k == 0 then n else Next(NextN(n, k - 1))
  }

  /** The count `k >= 1` advances reach: one below `start` counts as the zero marker. */
  function Origin(n: SimpleNamer): int {
    match n.count
    case Zero => n.options.start - 1
    case At(c) => c
  }

  /** Each advance of a state moves the count exactly one further. */
  lemma {:induction false} NextNCount(n: SimpleNamer, k: nat)
    requires k >= 1
    ensures NextN(n, k).base == n.base && NextN(n, k).options == n.options
    ensures NextN(n, k).count == At(Origin(n) + k)
  {
    if k > 1 {
      NextNCount(n, k - 1);
    }
  }

  /** The text the cursor contributes to the name: the zero marker's text or the count. */
  function CountText(n: SimpleNamer): string {
    match n.count
    case Zero => n.options.zero
    case At(k) => Decimal.IntToString(k)
  }

  /** `to_s` AS WRITTEN: base, count text and the extension, unchanged whatever
      `:compress` says, because the `.gz`-stripping branch computes a stripped copy of
      the extension and drops it. */
  function NameAsWritten(n: SimpleNamer): (r: string)
    ensures |r| >= |n.base| + |n.options.extension|
    ensures r[..|n.base|] == n.base
    ensures r[|r| - |n.options.extension|..] == n.options.extension
  {
    n.base + CountText(n) + n.options.extension
  }

  /** As written, `:compress` has no effect on any name. */
  lemma CompressIgnoredAsWritten(n: SimpleNamer, c: Compress)
    ensures NameAsWritten(n.(options := n.options.(compress := c))) == NameAsWritten(n)
  {
  }

  /** The counterexample: a namer told not to compress still yields `sitemap.xml.gz`. */
  lemma UncompressedNameKeepsGz()
    ensures NameAsWritten(New("sitemap", DefaultOptions.(compress := Never))) == "sitemap.xml.gz"
  {
  }

  /** Ruby's `gsub(/\.gz/, '')`: remove every `.gz`, scanning left to right. */
  function StripGz(s: string): (r: string)
    ensures |r| <= |s|
  {
    if |s| < 3 then s
    else if s[..3] == ".gz" then StripGz(s[3..])
    else [s[0]] + StripGz(s[1..])
  }

  /** The extension drops `.gz` when compression is off for this name. */
  predicate StripsGz(n: SimpleNamer) {
    (IsStart(n) && n.options.compress == AllButFirst) || n.options.compress == Never
  }

  /** `to_s` as the option's documentation describes it: the extension loses `.gz` when
      `:compress` is false, and on the first name only when it is `:all_but_first`. */
  function Name(n: SimpleNamer): (r: string)
    ensures !StripsGz(n) ==> r == NameAsWritten(n)
    ensures |r| >= |n.base| && r[..|n.base|] == n.base
  {
    var extension := if StripsGz(n) then StripGz(n.options.extension) else n.options.extension;
    n.base + CountText(n) + extension
  }

  /** Stripping the default extension leaves `.xml`. */
  lemma StripDefaultExtension()
    ensures StripGz(".xml.gz") == ".xml"
  {
    assert ".xml.gz"[1..] == "xml.gz";
    assert "xml.gz"[1..] == "ml.gz";
    assert "ml.gz"[1..] == "l.gz";
    assert "l.gz"[1..] == ".gz";
    assert ".gz"[3..] == "";
  }

  /** `gsub` drops a trailing `.gz` and otherwise acts on the rest alone: no match can
      straddle the junction, because `.gz` holds a dot only at its start. */
  lemma {:induction false} StripTrailingGz(p: string)
    ensures StripGz(p + ".gz") == StripGz(p)
    decreases |p|
  {
    var s := p + ".gz";
    if p == [] {
      assert s == ".gz";
      assert s[3..] == [];
    } else if s[..3] == ".gz" {
      assert s[1] == 'g' && s[2] == 'z';
      assert |p| >= 3 by {
        assert forall i :: |p| <= i < |s| ==> s[i] == ".gz"[i - |p|];
      }
      assert p[..3] == ".gz";
      assert s[3..] == p[3..] + ".gz";
      StripTrailingGz(p[3..]);
    } else {
      assert s[1..] == p[1..] + ".gz";
      StripTrailingGz(p[1..]);
      if |p| >= 3 {
        assert p[..3] == s[..3];
      } else {
        assert [p[0]] + p[1..] == p;
      }
    }
  }

  /** The counterpart of the counterexample: as documented, a namer for which
      compression is off names its file with the extension's trailing `.gz` removed. */
  lemma UncompressedNameDropsGz(n: SimpleNamer, p: string)
    requires StripsGz(n) && n.options.extension == p + ".gz"
    ensures Name(n) == n.base + CountText(n) + StripGz(p)
    ensures Name(n) != NameAsWritten(n)
  {
    StripTrailingGz(p);
    assert |StripGz(p)| < |n.options.extension|;
  }

  /** With the default extension the first name is `base.xml.gz`, or `base.xml` when
      compression is off for it (`false` or `:all_but_first`). */
  lemma DefaultFirstName(base: string, c: Compress)
    ensures Name(New(base, DefaultOptions.(compress := c)))
         == base + (if c == Always then ".xml.gz" else ".xml")
  {
    StripDefaultExtension();
  }

  /** With the default extension the numbered names are `base1.xml.gz`, `base2.xml.gz`,
      ..., losing `.gz` only when compression is off altogether. */
  lemma DefaultNumberedNames(base: string, c: Compress)
    ensures Name(Next(New(base, DefaultOptions.(compress := c))))
         == base + "1" + (if c == Never then ".xml" else ".xml.gz")
    ensures Name(Next(Next(New(base, DefaultOptions.(compress := c)))))
         == base + "2" + (if c == Never then ".xml" else ".xml.gz")
  {
    StripDefaultExtension();
    var n0 := New(base, DefaultOptions.(compress := c));
    assert CountText(Next(n0)) == "1";
    assert CountText(Next(Next(n0))) == "2";
  }

  /** After `reset` the series starts over at the first name. */
  lemma ResetRestartsSeries(n: SimpleNamer)
    ensures Name(Reset(n)) == Name(New(n.base, n.options))
  {
  }

  /** The names as written of two different advances differ. */
  lemma WrittenNamesDistinct(n: SimpleNamer, i: nat, j: nat)
    requires 1 <= i < j
    ensures NameAsWritten(NextN(n, i)) != NameAsWritten(NextN(n, j))
  {
    NextNCount(n, i);
    NextNCount(n, j);
    if NameAsWritten(NextN(n, i)) == NameAsWritten(NextN(n, j)) {
      CancelAffixes(n.base, Decimal.IntToString(Origin(n) + i), Decimal.IntToString(Origin(n) + j), n.options.extension);
      Decimal.IntToStringInjective(Origin(n) + i, Origin(n) + j);
    }
  }

  /** Successive `next` calls from one state yield pairwise distinct names, both as
      written and as documented, because the count strictly increases and its
      rendering is injective. */
  lemma NamesDistinct(n: SimpleNamer, i: nat, j: nat)
    requires 1 <= i < j
    ensures NameAsWritten(NextN(n, i)) != NameAsWritten(NextN(n, j))
    ensures Name(NextN(n, i)) != Name(NextN(n, j))
  {
    NextNCount(n, i);
    NextNCount(n, j);
    WrittenNamesDistinct(n, i, j);
    var a, b := NextN(n, i), NextN(n, j);
    if Name(a) == Name(b) {
      assert !StripsGz(a) || !StripsGz(b) || StripsGz(a) == StripsGz(b);
      var ext := if StripsGz(a) then StripGz(n.options.extension) else n.options.extension;
      assert Name(a) == n.base + Decimal.IntToString(Origin(n) + i) + ext;
      assert Name(b) == n.base + Decimal.IntToString(Origin(n) + j) + ext;
      CancelAffixes(n.base, Decimal.IntToString(Origin(n) + i), Decimal.IntToString(Origin(n) + j), ext);
      Decimal.IntToStringInjective(Origin(n) + i, Origin(n) + j);
    }
  }
}

=== FILE: names.dfy ===
/** The name supply and location record a sitemap file carries. The namer class the
    files draw their names from (`SitemapGenerator::SitemapNamer`) and the location class
    (`SitemapGenerator::SitemapLocation`) are not part of this model: the supply below only
    promises what the files rely on, that it never hands out the same name twice, and
    the location is a plain key/value record. */
module Names {
  import opened Common

  /** A file name handed out by a supply: the supply's base and a serial number.
      Distinct pairs are distinct names, so the supply is injective by construction. */
  datatype FileName = FileName(base: string, serial: nat)

  /** A name supply: its base and how many names it has issued so far. */
  datatype NameSupply = NameSupply(base: string, issued: nat) {

    /** `n` was handed out by this supply already. */
    predicate HasIssued(n: FileName) {
      n.base == base && n.serial < issued
    }

    /** The next name, and the supply advanced past it. */
    function Take(): (r: (FileName, NameSupply))
      ensures !HasIssued(r.0) && r.1.HasIssued(r.0)
      ensures r.1.base == base
      ensures forall n :: r.1.HasIssued(n) <==> HasIssued(n) || n == r.0
    {
      (FileName(base, issued), NameSupply(base, issued + 1))
    }
  }

  /** A supply that has issued nothing yet. */
  function NewSupply(base: string): (s: NameSupply)
    ensures s.base == base
    ensures forall n :: !s.HasIssued(n)
  {
    NameSupply(base, 0)
  }

  /** The keys of a location that the coordinator's setters write. */
  datatype LocationKey = PublicPath | SitemapsPath | Host

  /** Where a file goes and how it is reached: the public directory, the sub-path within
      it, the host used in URLs, and the file name once one is assigned. */
  datatype Location = Location(
    publicPath: Option<string>,
    sitemapsPath: Option<string>,
    host: Option<string>,
    filename: Option<FileName>)
  {
    /** `merge!(key => value)`: overwrite one key, keep the rest. */
    function Merge(key: LocationKey, value: Option<string>): (r: Location)
      ensures r.filename == filename
      ensures r.publicPath == (if key == PublicPath then value else publicPath)
      ensures r.sitemapsPath == (if key == SitemapsPath then value else sitemapsPath)
      ensures r.host == (if key == Host then value else host)
    {
      match key
      case PublicPath => this.(publicPath := value)
      case SitemapsPath => this.(sitemapsPath := value)
      case Host => this.(host := value)
    }
  }
}

=== FILE: packing.dfy ===
/** How `LinkSet#add` packs a stream of links. With links small enough that a full batch
    of 50,000 fits in one document, only the link limit ever fills a file, so `N` links
    use exactly `ceil(N / 50,000)` files: every rolled-over file is recorded in the
    index, and the current file holds the rest. */
module Packing {
  import opened Common
  import SitemapFiles
  import IndexFiles
  import LinkSets

  /** The largest entry of which 50,000 still fit in one document:
      464 + 50,000 * 209 = 10,450,464 bytes, under the 10,485,760-byte ceiling. */
  const SMALL_ENTRY: nat := 209

  predicate SmallEntries(es: seq<Entry>) {
    forall i :: 0 <= i < |es| ==> |es[i]| <= SMALL_ENTRY
  }

  /** Every disk write succeeds, and every reference the index stores is small. */
  ghost predicate Smooth(env: IndexFiles.Env) {
    env.failing == {} && forall f :: |env.refOf(f)| <= SMALL_ENTRY
  }

  /** `add` called on each link in turn, stopping at the first error that escapes. */
  function AddEach(ls: LinkSets.LinkSet, es: seq<Entry>, env: IndexFiles.Env): (LinkSets.LinkSet, Outcome)
    decreases |es|
  {
    if es == [] then (ls, Ok)
    else
      var prev := AddEach(ls, es[..|es| - 1], env);
      if prev.1.Failed? then prev
      else
        var r := LinkSets.AddFrom(LinkSets.WithSitemap(prev.0), es[|es| - 1], env);
        (r.0, r.1)
  }

  /** Every file in `files` holds the maximum number of links. */
  predicate AllFull(files: seq<SitemapFiles.SitemapFile>) {
    forall i :: 0 <= i < |files| ==> files[i].linkCount == MAX_SITEMAP_LINKS
  }

  /** The state after `n >= 1` small links: the state is consistent; the current file is
      open and holds between 1 and 50,000 links; the files recorded so far hold 50,000
      links each, so they and the current file account for all `n`; and both documents
      stay within a small entry's size per link. */
  predicate Packed(ls: LinkSets.LinkSet, n: nat) {
    && ls.sitemap.Some?
    && LinkSets.Consistent(ls)
    && !ls.sitemap.value.finalized
    && 1 <= ls.sitemap.value.linkCount <= MAX_SITEMAP_LINKS
    && |LinkSets.Sitemaps(ls)| * MAX_SITEMAP_LINKS + ls.sitemap.value.linkCount == n
    && AllFull(LinkSets.Sitemaps(ls))
    && ls.sitemap.value.filesize <= SitemapFiles.URLSET_WRAPPER_BYTES + SMALL_ENTRY * ls.sitemap.value.linkCount
    && (ls.index.Some? ==>
          && !ls.index.value.file.finalized
          && ls.index.value.file.filesize <= SitemapFiles.INDEX_WRAPPER_BYTES + SMALL_ENTRY * LinkSets.IndexCount(ls))
  }

  /** The first link goes into a new file. */
  lemma PackStart(ls: LinkSets.LinkSet, e: Entry, env: IndexFiles.Env)
    requires ls.sitemap.None? && ls.index.None? && |e| <= SMALL_ENTRY
    ensures LinkSets.AddFrom(LinkSets.WithSitemap(ls), e, env).1.Ok?
    ensures Packed(LinkSets.AddFrom(LinkSets.WithSitemap(ls), e, env).0, 1)
  {
    var ls1 := LinkSets.WithSitemap(ls);
    var a := LinkSets.TryAdd(ls1, e, env);
    assert a.kind.Stored?;
    assert LinkSets.AddFrom(ls1, e, env) == (a.ls, Ok, 0);
  }

  /** A link joins a current file holding fewer than 50,000 links. */
  lemma PackJoin(ls: LinkSets.LinkSet, n: nat, e: Entry, env: IndexFiles.Env)
    requires Packed(ls, n) && ls.sitemap.value.linkCount < MAX_SITEMAP_LINKS
    requires |e| <= SMALL_ENTRY
    ensures LinkSets.AddFrom(ls, e, env).1.Ok?
    ensures Packed(LinkSets.AddFrom(ls, e, env).0, n + 1)
  {
    var a := LinkSets.TryAdd(ls, e, env);
    assert a.kind.Stored?;
    assert LinkSets.AddFrom(ls, e, env) == (a.ls, Ok, 0);
  }

  /** The state right after a rollover recorded the current file: it is finalized and
      consistent, and the recorded files, each full, account for all `n` links; the
      open index stays within a small entry's size per reference. */
  predicate Recorded(m: LinkSets.LinkSet, n: nat) {
    && m.sitemap.Some? && m.sitemap.value.finalized
    && LinkSets.Consistent(m)
    && |LinkSets.Sitemaps(m)| * MAX_SITEMAP_LINKS == n
    && AllFull(LinkSets.Sitemaps(m))
    && m.index.Some? && !m.index.value.file.finalized
    && m.index.value.file.filesize <= SitemapFiles.INDEX_WRAPPER_BYTES + SMALL_ENTRY * LinkSets.IndexCount(m)
  }

  /** A current file holding 50,000 links is finalized into the index, which has room
      for its reference while fewer than 50,000 files are recorded. */
  lemma PackRecord(ls: LinkSets.LinkSet, n: nat, env: IndexFiles.Env)
    requires Packed(ls, n) && ls.sitemap.value.linkCount == MAX_SITEMAP_LINKS
    requires n < MAX_SITEMAP_LINKS * MAX_SITEMAP_LINKS && Smooth(env)
    ensures LinkSets.FinalizeSitemap(ls, env).1.Ok?
    ensures Recorded(LinkSets.FinalizeSitemap(ls, env).0, n)
  {
    var cur := ls.sitemap.value;
    var k := |LinkSets.Sitemaps(ls)|;
    assert k + 1 < MAX_SITEMAP_LINKS;
    var ls2 := LinkSets.WithIndex(ls);
    var idx := ls2.index.value;
    assert idx.file.linkCount == k && !idx.file.finalized;
    assert idx.file.filesize <= SitemapFiles.INDEX_WRAPPER_BYTES + SMALL_ENTRY * k;
    var g := SitemapFiles.Finalize(cur, true).value;
    assert |env.refOf(g)| <= SMALL_ENTRY;
    var out := IndexFiles.Add(idx, IndexFiles.FileRef(cur), env);
    assert out.status.Ok?;
    var r := LinkSets.FinalizeSitemap(ls, env);
    assert LinkSets.Sitemaps(r.0) == LinkSets.Sitemaps(ls) + [r.0.sitemap.value];
    assert r.0.sitemap.value.linkCount == MAX_SITEMAP_LINKS;
  }

  /** After a rollover the link goes alone into the successor of the recorded file. */
  lemma PackNext(m: LinkSets.LinkSet, n: nat, e: Entry, env: IndexFiles.Env)
    requires Recorded(m, n) && |e| <= SMALL_ENTRY
    ensures LinkSets.AddFrom(m, e, env).1.Ok?
    ensures Packed(LinkSets.AddFrom(m, e, env).0, n + 1)
  {
    var b := LinkSets.TryAdd(m, e, env);
    assert b.kind.Replaced?;
    var c := LinkSets.TryAdd(b.ls, e, env);
    assert c.kind.Stored?;
    assert LinkSets.AddFrom(b.ls, e, env) == (c.ls, Ok, 0);
    assert LinkSets.AddFrom(m, e, env) == (c.ls, Ok, 0);
    assert LinkSets.Sitemaps(c.ls) == LinkSets.Sitemaps(m);
  }

  /** When the current file holds 50,000 links, the link rolls over into a new file. */
  lemma PackRollover(ls: LinkSets.LinkSet, n: nat, e: Entry, env: IndexFiles.Env)
    requires Packed(ls, n) && ls.sitemap.value.linkCount == MAX_SITEMAP_LINKS
    requires n < MAX_SITEMAP_LINKS * MAX_SITEMAP_LINKS
    requires |e| <= SMALL_ENTRY && Smooth(env)
    ensures LinkSets.AddFrom(ls, e, env).1.Ok?
    ensures Packed(LinkSets.AddFrom(ls, e, env).0, n + 1)
  {
    PackRecord(ls, n, env);
    var a := LinkSets.TryAdd(ls, e, env);
    assert a.kind.RolledOver? && a.ls == LinkSets.FinalizeSitemap(ls, env).0;
    PackNext(a.ls, n, e, env);
    assert LinkSets.AddFrom(ls, e, env).0 == LinkSets.AddFrom(a.ls, e, env).0;
    assert LinkSets.AddFrom(ls, e, env).1 == LinkSets.AddFrom(a.ls, e, env).1;
  }

  /** One more small link keeps the state packed while the index has room. */
  lemma PackStep(ls: LinkSets.LinkSet, n: nat, e: Entry, env: IndexFiles.Env)
    requires Packed(ls, n) && n < MAX_SITEMAP_LINKS * MAX_SITEMAP_LINKS
    requires |e| <= SMALL_ENTRY && Smooth(env)
    ensures LinkSets.AddFrom(ls, e, env).1.Ok?
    ensures Packed(LinkSets.AddFrom(ls, e, env).0, n + 1)
  {
    if ls.sitemap.value.linkCount < MAX_SITEMAP_LINKS {
      PackJoin(ls, n, e, env);
    } else {
      PackRollover(ls, n, e, env);
    }
  }

  /** From a coordinator with no files yet, adding `N` small links, at most 50,000 times
      50,000 of them, never raises, and uses exactly `ceil(N / 50,000)` files: the ones
      recorded in the index, each full, and the current one, which together hold every
      link. */
  lemma {:induction false} PackedRun(ls: LinkSets.LinkSet, es: seq<Entry>, env: IndexFiles.Env)
    requires ls.sitemap.None? && ls.index.None?
    requires SmallEntries(es) && Smooth(env) && |es| <= MAX_SITEMAP_LINKS * MAX_SITEMAP_LINKS
    ensures AddEach(ls, es, env).1.Ok?
    ensures es != [] ==> Packed(AddEach(ls, es, env).0, |es|)
    ensures es != [] ==>
      var files := |LinkSets.Sitemaps(AddEach(ls, es, env).0)| + 1;
      (files - 1) * MAX_SITEMAP_LINKS < |es| <= files * MAX_SITEMAP_LINKS
    ensures AllFull(LinkSets.Sitemaps(AddEach(ls, es, env).0))
    decreases |es|
  {
    if es != [] {
      var prefix := es[..|es| - 1];
      var e := es[|es| - 1];
      assert |e| <= SMALL_ENTRY;
      assert SmallEntries(prefix) by {
        forall i | 0 <= i < |prefix| ensures |prefix[i]| <= SMALL_ENTRY {
          assert prefix[i] == es[i];
        }
      }
      PackedRun(ls, prefix, env);
      if prefix == [] {
        PackStart(ls, e, env);
      } else {
        var v := AddEach(ls, prefix, env).0;
        PackStep(v, |prefix|, e, env);
      }
    }
  }
}

=== FILE: sitemap_file.dfy ===
/** `SitemapGenerator::Builder::SitemapFile`: one bounded, append-only sitemap document
    with a one-way finalize flag. Entries are kept as their serialized bytes; the disk
    write performed by `finalize!` is reduced to a step that succeeds or fails. */
module SitemapFiles {
  import opened Common
  import opened Names

  /** The fixed document prologue and epilogue around the entries. After whitespace
      normalization the urlset prologue is 455 bytes and `</urlset>` is 9; the
      sitemapindex prologue is 281 bytes and `</sitemapindex>` is 15. `finalize!`
      replaces both strings with empty ones. */
  datatype Wrapper = Urlset | SitemapIndex | Cleared

  const URLSET_WRAPPER_BYTES: nat := 455 + 9
  const INDEX_WRAPPER_BYTES: nat := 281 + 15

  function WrapperBytes(w: Wrapper): nat {
    match w
    case Urlset => URLSET_WRAPPER_BYTES
    case SitemapIndex => INDEX_WRAPPER_BYTES
    case Cleared => 0
  }

  /** The base a file is named after when no filename is given. */
  const DEFAULT_BASE: string := "sitemap"

  datatype SitemapFile = SitemapFile(
    location: Location,
    namer: NameSupply,
    name: FileName,
    linkCount: nat,
    filesize: nat,
    content: seq<Entry>,
    wrapper: Wrapper,
    finalized: bool)

  /** A document with `linkCount` links and `filesize` bytes obeys the protocol: at most
      50,000 links, and strictly under 10 MiB. */
  predicate WithinLimits(linkCount: nat, filesize: nat) {
    linkCount <= MAX_SITEMAP_LINKS && filesize < MAX_SITEMAP_FILESIZE
  }

  /** The counters agree with the document and stay within the protocol's limits:
      while open, `filesize` is the wrapper plus the entries and `linkCount` the
      number of entries; once finalized the buffer and wrapper are gone. */
  predicate Valid(f: SitemapFile) {
    && WithinLimits(f.linkCount, f.filesize)
    && (!f.finalized ==>
          f.linkCount == |f.content| && f.wrapper != Cleared
          && f.filesize == WrapperBytes(f.wrapper) + TotalBytes(f.content))
    && (f.finalized ==> f.content == [] && f.wrapper == Cleared)
  }

  /** The file's name is the last one its supply handed out. */
  predicate Named(f: SitemapFile) {
    f.namer.issued >= 1 && f.name == FileName(f.namer.base, f.namer.issued - 1)
  }

  /** `empty?`: no link added yet; for an open file, no entry is buffered. */
  function IsEmpty(f: SitemapFile): (r: bool)
    ensures Valid(f) && !f.finalized ==> (r <==> f.content == [])
  {
    f.linkCount == 0
  }

  /** `file_can_fit?(bytes)`: the file, grown by one more link of `bytes` bytes, would
      still obey the protocol's limits. */
  function FileCanFit(f: SitemapFile, bytes: nat): (r: bool)
    ensures r <==> WithinLimits(f.linkCount + 1, f.filesize + bytes)
  {
    f.filesize + bytes < MAX_SITEMAP_FILESIZE && f.linkCount < MAX_SITEMAP_LINKS
  }

  /** How a Ruby attribute is declared: `attr_reader` defines only the reader,
      `attr_accessor` the reader and the writer `name=`. */
  datatype AttrKind = Reader | Accessor

  datatype AttrDecl = AttrDecl(name: string, kind: AttrKind)

  /** The attributes `SitemapFile` declares: all of them readers only. */
  const ATTRIBUTES: seq<AttrDecl> := [
    AttrDecl("link_count", Reader),
    AttrDecl("filesize", Reader),
    AttrDecl("filename", Reader),
    AttrDecl("location", Reader)]

  /** The attributes whose writer `SitemapFile` defines as a method of its own
      (`filename=`). */
  const WRITER_METHODS: set<string> := {"filename"}

  /** An object of a class declaring `attrs` and defining the writer methods `methods`
      responds to `name=`; otherwise the call raises NoMethodError. */
  predicate HasWriter(attrs: seq<AttrDecl>, methods: set<string>, name: string) {
    name in methods || exists i :: 0 <= i < |attrs| && attrs[i] == AttrDecl(name, Accessor)
  }

  /** An entry fits a file that holds nothing yet. */
  predicate FitsEmpty(e: Entry) {
    URLSET_WRAPPER_BYTES + |e| < MAX_SITEMAP_FILESIZE
  }

  /** `SitemapFile.new`: named by the given supply, or by a new one over `base`
      (default `sitemap`); the location records the name; no links yet, and the size is
      that of the wrapper alone. */
  function New(location: Location, base: Option<string>, namer: Option<NameSupply>): (f: SitemapFile)
    ensures Valid(f) && Named(f)
    ensures IsEmpty(f) && f.content == [] && !f.finalized
    ensures f.filesize == URLSET_WRAPPER_BYTES
    ensures namer.Some? ==> f.name == FileName(namer.value.base, namer.value.issued)
    ensures namer.Some? ==> f.namer == NameSupply(namer.value.base, namer.value.issued + 1)
    ensures namer.None? ==> f.name == FileName(base.GetOr(DEFAULT_BASE), 0)
    ensures f.location == location.(filename := Some(f.name))
  {
    var supply := if namer.Some? then namer.value else NewSupply(base.GetOr(DEFAULT_BASE));
    var (name, supply') := supply.Take();
    SitemapFile(location.(filename := Some(name)), supply', name, 0, URLSET_WRAPPER_BYTES, [], Urlset, false)
  }

  /** What `add` did: appended the entry, or raised. */
  datatype AddResult = Added(file: SitemapFile) | Full | Finalized

  /** `add`: a finalized file refuses before any size check; an entry that would take
      the size to the ceiling, or a file already holding the maximum number of links,
      is refused as full and the file is left as it was; otherwise the entry goes on
      the end and both counters grow. */
  function Add(f: SitemapFile, e: Entry): (r: AddResult)
    ensures r.Finalized? <==> f.finalized
    ensures r.Full? <==>
      !f.finalized && (f.filesize + |e| >= MAX_SITEMAP_FILESIZE || f.linkCount >= MAX_SITEMAP_LINKS)
    ensures r.Added? ==>
      r.file == f.(content := f.content + [e], filesize := f.filesize + |e|, linkCount := f.linkCount + 1)
    ensures r.Added? && Valid(f) ==> Valid(r.file)
  {
    if f.finalized then Finalized
    else if !FileCanFit(f, |e|) then Full
    else
      TotalBytesAppend(f.content, e);
      Added(f.(content := f.content + [e], filesize := f.filesize + |e|, linkCount := f.linkCount + 1))
  }

  /** `finalize!`: a finalized file refuses; a failed write leaves the file open with its
      buffer intact (the buffer is cleared and the object frozen only after the write);
      a successful one clears the buffer and wrapper and sets the flag, keeping the
      counters, name and location readable. */
  function Finalize(f: SitemapFile, writeOk: bool): (r: Result<SitemapFile>)
    ensures f.finalized ==> r == Failure(SitemapFinalized)
    ensures !f.finalized && !writeOk ==> r == Failure(WriteFailed)
    ensures r.Success? <==> !f.finalized && writeOk
    ensures r.Success? ==>
      && r.value.finalized && r.value.content == [] && r.value.wrapper == Cleared
      && r.value.linkCount == f.linkCount && r.value.filesize == f.filesize
      && r.value.name == f.name && r.value.location == f.location && r.value.namer == f.namer
    ensures r.Success? && Valid(f) ==> Valid(r.value)
  {
    if f.finalized then Failure(SitemapFinalized)
    else if !writeOk then Failure(WriteFailed)
    else Success(f.(content := [], wrapper := Cleared, finalized := true))
  }

  /** Once finalized, a file refuses every further `add` and `finalize!`. */
  lemma FinalizedIsFinal(f: SitemapFile, e: Entry, writeOk: bool)
    requires Finalize(f, true).Success?
    ensures Add(Finalize(f, true).value, e) == Finalized
    ensures Finalize(Finalize(f, true).value, writeOk) == Failure(SitemapFinalized)
  {
  }

  /** Any entry that fits an empty file is accepted by a new one. */
  lemma NewFileAccepts(location: Location, base: Option<string>, namer: Option<NameSupply>, e: Entry)
    requires FitsEmpty(e)
    ensures Add(New(location, base, namer), e).Added?
    ensures Add(New(location, base, namer), e).file.content == [e]
  {
  }

  /** `next`: a new, empty, open file with the same location and namer, named by the
      namer's next value. */
  function Next(f: SitemapFile): (r: SitemapFile)
    ensures Valid(r) && IsEmpty(r) && r.content == [] && !r.finalized
    ensures r.filesize == URLSET_WRAPPER_BYTES
    ensures r.location == f.location.(filename := Some(r.name))
    ensures r.namer.base == f.namer.base && r.namer.issued == f.namer.issued + 1
    ensures !f.namer.HasIssued(r.name) && r.namer.HasIssued(r.name)
    ensures Named(f) ==> r.name != f.name
  {
    New(f.location, None, Some(f.namer))
  }

  /** `f` followed by `k` successors. */
  function NextN(f: SitemapFile, k: nat): SitemapFile {
    if k == 0 then f else Next(NextN(f, k - 1))
  }

  /** The `k`-th successor is named by the supply's `k`-th next name. */
  lemma {:induction false} NextNNamed(f: SitemapFile, k: nat)
    requires Named(f)
    ensures Named(NextN(f, k))
    ensures NextN(f, k).namer == NameSupply(f.namer.base, f.namer.issued + k)
  {
    if k > 0 {
      NextNNamed(f, k - 1);
    }
  }

  /** A chain of rollovers never reuses a name. */
  lemma SuccessorNamesDistinct(f: SitemapFile, i: nat, j: nat)
    requires Named(f) && i < j
    ensures NextN(f, i).name != NextN(f, j).name
  {
    NextNNamed(f, i);
    NextNNamed(f, j);
  }

  /** `filename=`: a new namer over `base`, and the file renamed by its first name.
      A frozen (finalized) file raises instead. */
  function SetFilename(f: SitemapFile, base: string): (r: Result<SitemapFile>)
    ensures f.finalized <==> r == Failure(FrozenObject)
    ensures r.Success? ==>
      && Named(r.value)
      && r.value.name == FileName(base, 0)
      && r.value.location == f.location.(filename := Some(r.value.name))
      && r.value.content == f.content && r.value.linkCount == f.linkCount
      && r.value.filesize == f.filesize && r.value.wrapper == f.wrapper
    ensures r.Success? && Valid(f) ==> Valid(r.value)
  {
    if f.finalized then Failure(FrozenObject)
    else
      var (name, supply) := NewSupply(base).Take();
      Success(f.(namer := supply, name := name, location := f.location.(filename := Some(name))))
  }
}

=== FILE: sitemap_index_file.dfy ===
/** `SitemapGenerator::Builder::SitemapIndexFile`: a sitemap file whose entries refer to
    other sitemap files. Adding a file records it and finalizes it BEFORE the index's own
    checks run, so a full or finalized index still records and finalizes the file it is
    handed, then raises. */
module IndexFiles {
  import opened Common
  import opened Names
  import SitemapFiles

  type SitemapFile = SitemapFiles.SitemapFile

  /** The index's own document, and `sitemaps`: every file handed to `add`, in order. */
  datatype IndexFile = IndexFile(file: SitemapFiles.SitemapFile, sitemaps: seq<SitemapFile>)

  /** What `add` is handed: a sitemap file, or any other link (a raw index location). */
  datatype IndexLink = FileRef(sitemap: SitemapFile) | UrlRef(entry: Entry)

  /** The environment the writer runs in: the names whose disk write fails, and the
      serialized `<sitemap>` element referring to a finalized file (its XML comes from
      `SitemapIndexUrl`, which is not part of this model). */
  datatype Env = Env(failing: set<FileName>, refOf: SitemapFile -> Entry)

  /** Whether writing `f` to disk succeeds. */
  predicate WriteOk(env: Env, f: SitemapFile) {
    f.name !in env.failing
  }

  /** The attributes `SitemapIndexFile` declares: those of `SitemapFile`, and
      `sitemaps` as an accessor. */
  const ATTRIBUTES: seq<SitemapFiles.AttrDecl> :=
    SitemapFiles.ATTRIBUTES + [SitemapFiles.AttrDecl("sitemaps", SitemapFiles.Accessor)]

  /** An index responds to `name=`: a writer it declares or inherits. */
  predicate HasWriter(name: string) {
    SitemapFiles.HasWriter(ATTRIBUTES, SitemapFiles.WRITER_METHODS, name)
  }

  /** `SitemapIndexFile.new` AS WRITTEN: the parent constructor runs, then
      `self.sitemaps = []` and, after the wrapper is replaced, `self.filesize = ...`.
      Each assignment calls a writer, and a writer the class does not have raises
      NoMethodError. */
  function NewAsWritten(location: Location, base: Option<string>): (r: Result<IndexFile>)
    ensures r.Success? <==> HasWriter("sitemaps") && HasWriter("filesize")
    ensures r.Failure? ==> r.error == MissingSetter
    ensures r.Success? ==> r.value == New(location, base)
  {
    var parent := SitemapFiles.New(location, base, None);
    if !HasWriter("sitemaps") then Failure(MissingSetter)
    else
      var idx := IndexFile(parent.(wrapper := SitemapFiles.SitemapIndex), []);
      if !HasWriter("filesize") then Failure(MissingSetter)
      else Success(idx.(file := idx.file.(filesize := SitemapFiles.INDEX_WRAPPER_BYTES)))
  }

  /** The counterexample: `filesize` is declared with `attr_reader` only, so every
      construction raises, although the constructor as intended yields a valid index. */
  lemma ConstructorRaises(location: Location, base: Option<string>)
    ensures HasWriter("sitemaps") && !HasWriter("filesize")
    ensures NewAsWritten(location, base) == Failure(MissingSetter)
    ensures Valid(New(location, base)) && New(location, base).sitemaps == []
  {
    assert ATTRIBUTES[4] == SitemapFiles.AttrDecl("sitemaps", SitemapFiles.Accessor);
    assert "filesize"[4] != "filename"[4] && "filesize"[0] != "sitemaps"[0];
    forall i | 0 <= i < |ATTRIBUTES|
      ensures ATTRIBUTES[i] != SitemapFiles.AttrDecl("filesize", SitemapFiles.Accessor)
    {
      if i < 4 {
        assert ATTRIBUTES[i].kind == SitemapFiles.Reader;
      }
    }
  }

  /** `SitemapIndexFile.new` as evidently intended: a new sitemap file whose wrapper is
      the sitemapindex one, whose size is reset to that wrapper's length, and whose
      `sitemaps` list is empty. */
  function New(location: Location, base: Option<string>): (idx: IndexFile)
    ensures Valid(idx) && idx.sitemaps == []
    ensures idx.file.content == [] && idx.file.linkCount == 0 && !idx.file.finalized
    ensures idx.file.filesize == SitemapFiles.INDEX_WRAPPER_BYTES
    ensures idx.file.location == location.(filename := Some(idx.file.name))
    ensures idx.file.name == FileName(base.GetOr(SitemapFiles.DEFAULT_BASE), 0)
  {
    var parent := SitemapFiles.New(location, base, None);
    IndexFile(parent.(wrapper := SitemapFiles.SitemapIndex, filesize := SitemapFiles.INDEX_WRAPPER_BYTES), [])
  }

  predicate Valid(idx: IndexFile) {
    SitemapFiles.Valid(idx.file)
  }

  /** The index after `add`, and whether `add` returned or raised. Ruby keeps every
      mutation made before a raise, so the index is returned either way. */
  datatype IndexAdd = IndexAdd(index: IndexFile, status: Outcome)

  /** The index's own `add` of one serialized entry (`super` in the source). */
  function AddEntry(idx: IndexFile, e: Entry): (r: IndexAdd)
    ensures r.index.sitemaps == idx.sitemaps
    ensures r.status.Ok? <==> SitemapFiles.Add(idx.file, e).Added?
    ensures r.status.Ok? ==> r.index.file == SitemapFiles.Add(idx.file, e).file
    ensures !r.status.Ok? ==> r.index == idx
  {
    match SitemapFiles.Add(idx.file, e)
    case Added(g) => IndexAdd(idx.(file := g), Ok)
    case Full => IndexAdd(idx, Failed(SitemapFull))
    case Finalized => IndexAdd(idx, Failed(SitemapFinalized))
  }

  /** `add`: a sitemap file is appended to `sitemaps` and finalized first (whatever
      state the index is in), and only then is the reference entry added to the index's
      own document. Any other link leaves `sitemaps` alone and is added as a plain
      entry. */
  function Add(idx: IndexFile, link: IndexLink, env: Env): (r: IndexAdd)
    // any other link: exactly the plain file's add
    ensures link.UrlRef? ==> r == AddEntry(idx, link.entry)
    // a file is always recorded, and `sitemaps` only grows
    ensures link.FileRef? ==> |r.index.sitemaps| == |idx.sitemaps| + 1
    ensures idx.sitemaps <= r.index.sitemaps
    ensures link.FileRef? ==> r.index.sitemaps[|idx.sitemaps|].name == link.sitemap.name
    // an already finalized file: recorded as it is, then finalize! raises
    ensures link.FileRef? && link.sitemap.finalized ==>
      r.index.sitemaps[|idx.sitemaps|] == link.sitemap && r == IndexAdd(r.index, Failed(SitemapFinalized))
    // a failed write: recorded still open, and the error escapes
    ensures link.FileRef? && !link.sitemap.finalized && !WriteOk(env, link.sitemap) ==>
      r.index.sitemaps[|idx.sitemaps|] == link.sitemap && r.status == Failed(WriteFailed)
    // a successful write: the recorded file is finalized whatever happens next
    ensures link.FileRef? && !link.sitemap.finalized && WriteOk(env, link.sitemap) ==>
      r.index.sitemaps[|idx.sitemaps|] == SitemapFiles.Finalize(link.sitemap, true).value
      && r.index.sitemaps[|idx.sitemaps|].finalized
    // the index's own document changes only by one appended reference
    ensures !r.status.Ok? ==> r.index.file == idx.file
    ensures r.status.Ok? ==>
      r.index.file.linkCount == idx.file.linkCount + 1 && !idx.file.finalized
      && idx.file.linkCount < MAX_SITEMAP_LINKS
      && idx.file.content <= r.index.file.content
    ensures r.status.Ok? && link.FileRef? ==>
      && r.index.file.content == idx.file.content + [env.refOf(r.index.sitemaps[|idx.sitemaps|])]
      && r.index.file.filesize == idx.file.filesize + |env.refOf(r.index.sitemaps[|idx.sitemaps|])|
    ensures Valid(idx) ==> Valid(r.index)
  {
    match link
    case UrlRef(e) => AddEntry(idx, e)
    case FileRef(f) =>
      match SitemapFiles.Finalize(f, WriteOk(env, f))
      case Failure(err) => IndexAdd(idx.(sitemaps := idx.sitemaps + [f]), Failed(err))
      case Success(g) => AddEntry(idx.(sitemaps := idx.sitemaps + [g]), env.refOf(g))
  }

  /** When the index is finalized or has no room for the file's reference (by links or
      by bytes), adding a file still finalizes and records it before the index raises. */
  lemma RecordsBeforeRefusing(idx: IndexFile, f: SitemapFile, env: Env)
    requires !f.finalized && WriteOk(env, f)
    requires idx.file.finalized
      || !SitemapFiles.FileCanFit(idx.file, |env.refOf(SitemapFiles.Finalize(f, true).value)|)
    ensures Add(idx, FileRef(f), env).index.sitemaps == idx.sitemaps + [SitemapFiles.Finalize(f, true).value]
    ensures Add(idx, FileRef(f), env).status.Failed?
    ensures Add(idx, FileRef(f), env).index.file == idx.file
  {
  }

  /** Number of references successfully written into the index by a run of `add`s. */
  function CountOk(statuses: seq<Outcome>): nat {
    if statuses == [] then 0 else (if statuses[0].Ok? then 1 else 0) + CountOk(statuses[1..])
  }

  /** Run `add` on each link in turn (raises do not stop the run: each call is
      independent), returning the final index and each call's outcome. */
  function AddAll(idx: IndexFile, links: seq<IndexLink>, env: Env): (r: (IndexFile, seq<Outcome>))
    ensures |r.1| == |links|
    decreases |links|
  {
    if links == [] then (idx, [])
    else
      var step := Add(idx, links[0], env);
      var rest := AddAll(step.index, links[1..], env);
      (rest.0, [step.status] + rest.1)
  }

  /** Over any run of `add`s the index's link count grows by exactly the number of calls
      that returned normally, and `sitemaps` only grows. */
  lemma {:induction false} LinkCountIsSuccessfulAdds(idx: IndexFile, links: seq<IndexLink>, env: Env)
    ensures AddAll(idx, links, env).0.file.linkCount == idx.file.linkCount + CountOk(AddAll(idx, links, env).1)
    ensures idx.sitemaps <= AddAll(idx, links, env).0.sitemaps
    decreases |links|
  {
    if links != [] {
      var step := Add(idx, links[0], env);
      LinkCountIsSuccessfulAdds(step.index, links[1..], env);
      var rest := AddAll(step.index, links[1..], env);
      assert AddAll(idx, links, env).1 == [step.status] + rest.1;
      assert ([step.status] + rest.1)[1..] == rest.1;
    }
  }
}

=== FILE: writer.dfy ===
/** `SitemapGenerator::LinkSet::Writer`: the older, count-only batcher. Links are buffered
    up to `max_entries` at a time; a full buffer is flushed to the next numbered file
    `sitemapN.xml.gz`, and writing the index clears both the buffer and the list of
    files written since the last index. Writing a file is reduced to appending a record
    of it to `output`. */
module Writer {
  import opened Common
  import Decimal

  /** A file the writer has written: a sitemap holding its links, or the index listing
      the sitemap files it refers to. */
  datatype Output = SitemapOut(path: string, links: seq<Entry>) | IndexOut(path: string, sitemaps: seq<string>)

  /** The writer's attributes: `host`, the buffered `links`, the `sitemaps` written
      since the last index, `max_entries` and `link_count`. `root` is the application
      root files are written under, and `output` the files written so far. */
  datatype Writer = Writer(
    host: string,
    root: string,
    links: seq<Entry>,
    sitemaps: seq<string>,
    maxEntries: nat,
    linkCount: nat,
    output: seq<Output>)

  /** The index's file name. */
  const INDEX_FILE: string := "sitemap_index.xml.gz"

  /** `File.join(root, "tmp", file)`: where a sitemap file is written. */
  function SitemapPath(root: string, file: string): string {
    root + "/tmp/" + file
  }

  /** `File.join(root, "public", index_file)`: where the index is written. */
  function IndexPath(root: string): string {
    root + "/public/" + INDEX_FILE
  }

  /** The name of the `k`-th sitemap file. */
  function NumberedFile(k: nat): string {
    "sitemap" + Decimal.NatToString(k) + ".xml.gz"
  }

  /** `new(host)`: nothing buffered or written, a batch size of `MAX_ENTRIES`. */
  function New(host: string, root: string): (w: Writer)
    ensures w.links == [] && w.sitemaps == [] && w.output == []
    ensures w.linkCount == 0 && w.maxEntries == MAX_ENTRIES
    ensures FirstLink(w) && Indexed(w)
  {
    Writer(host, root, [], [], MAX_ENTRIES, 0, [])
  }

  /** `first_sitemap?` */
  predicate FirstSitemap(w: Writer) {
    w.sitemaps == []
  }

  /** `multiple_sitemaps?` */
  predicate MultipleSitemaps(w: Writer) {
    !FirstSitemap(w)
  }

  /** `more_sitemaps?` */
  predicate MoreSitemaps(w: Writer) {
    |w.sitemaps| < w.maxEntries
  }

  /** `enough_sitemaps?` */
  predicate EnoughSitemaps(w: Writer) {
    !MoreSitemaps(w)
  }

  /** `first_link?` */
  predicate FirstLink(w: Writer) {
    w.links == [] && FirstSitemap(w)
  }

  /** `more_links?` */
  predicate MoreLinks(w: Writer) {
    |w.links| < w.maxEntries
  }

  /** `enough_links?` */
  predicate EnoughLinks(w: Writer) {
    !MoreLinks(w)
  }

  /** `upcoming_index`: the number of the next sitemap file, counting from 1, while more
      files may be written; nil after that. */
  function UpcomingIndex(w: Writer): (r: Option<nat>)
    ensures r.Some? <==> MoreSitemaps(w)
    ensures r.Some? ==> r.value >= 1 && r.value - 1 == |w.sitemaps|
  {
    if EnoughSitemaps(w) then None else Some(|w.sitemaps| + 1)
  }

  /** `upcoming_file`: the next sitemap file's name, carrying the upcoming index, while
      more files may be written; nil after that. */
  function UpcomingFile(w: Writer): (r: Option<string>)
    ensures r.Some? <==> MoreSitemaps(w)
    ensures r.Some? ==> r.value == NumberedFile(UpcomingIndex(w).value)
  {
    match UpcomingIndex(w)
    case Some(k) => Some(NumberedFile(k))
    case None => None
  }

  /** The number embedded in a numbered file name is read back from the name. */
  lemma NumberedFileParses(k: nat)
    ensures var f := NumberedFile(k);
      |f| > 14 && f[..7] == "sitemap" && f[|f| - 7..] == ".xml.gz"
      && (forall i :: 7 <= i < |f| - 7 ==> Decimal.IsDigit(f[i]))
      && Decimal.ParseNat(f[7..|f| - 7]) == k
  {
    var f := NumberedFile(k);
    assert f[7..|f| - 7] == Decimal.NatToString(k);
    Decimal.ParseNatToString(k);
  }

  /** Distinct numbers give distinct sitemap paths. */
  lemma SitemapPathsDistinct(root: string, a: nat, b: nat)
    requires a != b
    ensures SitemapPath(root, NumberedFile(a)) != SitemapPath(root, NumberedFile(b))
  {
    if SitemapPath(root, NumberedFile(a)) == SitemapPath(root, NumberedFile(b)) {
      assert SitemapPath(root, NumberedFile(a)) == root + "/tmp/sitemap" + Decimal.NatToString(a) + ".xml.gz";
      assert SitemapPath(root, NumberedFile(b)) == root + "/tmp/sitemap" + Decimal.NatToString(b) + ".xml.gz";
      CancelAffixes(root + "/tmp/sitemap", Decimal.NatToString(a), Decimal.NatToString(b), ".xml.gz");
      Decimal.NatToStringInjective(a, b);
    }
  }

  /** The files written since the last index are `sitemap1.xml.gz`, `sitemap2.xml.gz`,
      ... in order, and there are at most `max_entries` of them. */
  predicate Indexed(w: Writer) {
    && |w.sitemaps| <= w.maxEntries
    && forall i :: 0 <= i < |w.sitemaps| ==> w.sitemaps[i] == SitemapPath(w.root, NumberedFile(i + 1))
  }

  /** Under `Indexed` no sitemap file is listed twice. */
  lemma IndexedDistinct(w: Writer, i: nat, j: nat)
    requires Indexed(w) && i < j < |w.sitemaps|
    ensures w.sitemaps[i] != w.sitemaps[j]
  {
    SitemapPathsDistinct(w.root, i + 1, j + 1);
  }

  /** `write_sitemap(file)`: the buffered links go into `file` under `tmp/`, the buffer is
      emptied and the file's path is listed. A nil file name makes `File.join` raise
      before anything changes. */
  function WriteSitemap(w: Writer, file: Option<string>): (r: Result<Writer>)
    ensures file.None? <==> r == Failure(NilFilename)
    ensures r.Success? ==>
      && r.value.links == []
      && r.value.sitemaps == w.sitemaps + [SitemapPath(w.root, file.value)]
      && r.value.output == w.output + [SitemapOut(SitemapPath(w.root, file.value), w.links)]
      && r.value.(links := w.links, sitemaps := w.sitemaps, output := w.output) == w
  {
    match file
    case None => Failure(NilFilename)
    case Some(f) =>
      var path := SitemapPath(w.root, f);
      Success(w.(links := [], sitemaps := w.sitemaps + [path], output := w.output + [SitemapOut(path, w.links)]))
  }

  /** `write_upcoming`: the buffer goes into the upcoming numbered file; once
      `max_entries` files are listed there is no upcoming file and the write raises. */
  function WriteUpcoming(w: Writer): (r: Result<Writer>)
    ensures r.Success? <==> MoreSitemaps(w)
    ensures r.Failure? ==> r == Failure(NilFilename)
    ensures r.Success? ==>
      |r.value.sitemaps| == |w.sitemaps| + 1 && r.value.links == [] && r.value.linkCount == w.linkCount
    ensures r.Success? && Indexed(w) ==> Indexed(r.value)
  {
    WriteSitemap(w, UpcomingFile(w))
  }

  /** `write_index`: the index listing the files written since the last index goes
      under `public/`, and both the buffer and the list are emptied. */
  function WriteIndex(w: Writer): (r: Writer)
    ensures r.links == [] && r.sitemaps == [] && FirstLink(r) && Indexed(r)
    ensures r.output == w.output + [IndexOut(IndexPath(w.root), w.sitemaps)]
    ensures r.linkCount == w.linkCount && r.maxEntries == w.maxEntries && r.root == w.root
  {
    w.(links := [], sitemaps := [], output := w.output + [IndexOut(IndexPath(w.root), w.sitemaps)])
  }

  /** `write_pending` (and `write`): the buffer into the upcoming file, then the index;
      the index lists that file last. If there is no upcoming file the error escapes
      before the index is written. */
  function WritePending(w: Writer): (r: Result<Writer>)
    ensures r.Success? <==> MoreSitemaps(w)
    ensures r.Success? ==>
      && FirstLink(r.value)
      && r.value.linkCount == w.linkCount
      && var file := SitemapPath(w.root, UpcomingFile(w).value);
         r.value.output == w.output + [SitemapOut(file, w.links), IndexOut(IndexPath(w.root), w.sitemaps + [file])]
  {
    match WriteUpcoming(w)
    case Failure(e) => Failure(e)
    case Success(v) => Success(WriteIndex(v))
  }

  /** `add_link(link)`: a full buffer is first flushed into the upcoming file, then the
      link is buffered and counted. The flush raises (and nothing changes) when the
      buffer is full and `max_entries` files are already listed. */
  function AddLink(w: Writer, e: Entry): (r: Result<Writer>)
    ensures r.Failure? <==> EnoughLinks(w) && EnoughSitemaps(w)
    ensures r.Success? ==>
      && r.value.linkCount == w.linkCount + 1
      && |r.value.links| >= 1 && r.value.links[|r.value.links| - 1] == e
      && |r.value.links| <= w.maxEntries
      && r.value.maxEntries == w.maxEntries && r.value.root == w.root
    // no flush: the link joins the buffer
    ensures r.Success? && MoreLinks(w) ==>
      r.value.links == w.links + [e] && r.value.sitemaps == w.sitemaps && r.value.output == w.output
    // flush: the full buffer went into the next numbered file
    ensures r.Success? && EnoughLinks(w) ==>
      && r.value.links == [e]
      && |r.value.sitemaps| == |w.sitemaps| + 1 && w.sitemaps <= r.value.sitemaps
      && r.value.output == w.output + [SitemapOut(r.value.sitemaps[|w.sitemaps|], w.links)]
    ensures r.Success? && Indexed(w) ==> Indexed(r.value)
    // nothing is lost or reordered: the written and buffered links grow by `e`
    ensures r.Success? ==> Flushed(r.value.output) + r.value.links == Flushed(w.output) + w.links + [e]
  {
    if EnoughLinks(w) then
      match WriteUpcoming(w)
      case Failure(err) => Failure(err)
      case Success(v) =>
        FlushedAppend(w.output, v.output[|v.output| - 1]);
        Success(v.(links := [e], linkCount := v.linkCount + 1))
    else
      Success(w.(links := w.links + [e], linkCount := w.linkCount + 1))
  }

  /** `add_default_links`: the root link, then the index's own link. */
  function AddDefaultLinks(w: Writer, rootLink: Entry, indexLink: Entry): (r: Result<Writer>)
    // with batches of at least two, the call raises exactly when the links would need
    // one more file than `max_entries` allows
    ensures w.maxEntries >= 2 ==>
      (r.Failure? <==> EnoughSitemaps(w) && |w.links| + 1 >= w.maxEntries)
    ensures r.Success? ==> r.value.linkCount == w.linkCount + 2
    // in every case the two links follow everything written or buffered, in order
    ensures r.Success? ==>
      Flushed(r.value.output) + r.value.links == Flushed(w.output) + w.links + [rootLink, indexLink]
    ensures r.Success? ==> |r.value.links| >= 1 && r.value.links[|r.value.links| - 1] == indexLink
    ensures MoreLinks(w) && |w.links| + 1 < w.maxEntries ==>
      r.Success? && r.value.links == w.links + [rootLink, indexLink]
  {
    var first := AddLink(w, rootLink);
    if first.Failure? then first else AddLink(first.value, indexLink)
  }

  /** `add_link` for each link in turn, stopping at the first error. */
  function AddLinks(w: Writer, es: seq<Entry>): Result<Writer>
    decreases |es|
  {
    if es == [] then Success(w)
    else
      match AddLinks(w, es[..|es| - 1])
      case Failure(err) => Failure(err)
      case Success(v) => AddLink(v, es[|es| - 1])
  }

  /** The links in the sitemap files of `output`, in the order they were written. */
  function Flushed(output: seq<Output>): seq<Entry>
    decreases |output|
  {
    if output == [] then []
    else
      var last := output[|output| - 1];
      Flushed(output[..|output| - 1]) + (if last.SitemapOut? then last.links else [])
  }

  /** Writing one more file adds its links after those already written. */
  lemma FlushedAppend(output: seq<Output>, o: Output)
    ensures Flushed(output + [o]) == Flushed(output) + (if o.SitemapOut? then o.links else [])
  {
    assert (output + [o])[..|output|] == output;
  }

  /** The largest number of links one writer accepts before an index is written:
      `max_entries` full files plus a full buffer. */
  const CAPACITY: nat := MAX_ENTRIES * MAX_ENTRIES + MAX_ENTRIES

  /** What holds after `n` links were added to a new writer: every link is either in a
      written file or buffered, in the order added; each written file holds a full batch;
      the buffer is never empty once a link was added; and the files are numbered. */
  predicate Packed(w: Writer, es: seq<Entry>) {
    && w.maxEntries == MAX_ENTRIES
    && w.linkCount == |es|
    && |w.sitemaps| * MAX_ENTRIES + |w.links| == |es|
    && |w.links| <= MAX_ENTRIES
    && (es != [] ==> |w.links| >= 1)
    && Flushed(w.output) + w.links == es
    && Indexed(w)
  }

  /** One more `add_link` on a packed writer succeeds exactly below `CAPACITY` and keeps
      it packed. */
  lemma PackedStep(v: Writer, es: seq<Entry>, e: Entry)
    requires Packed(v, es)
    ensures AddLink(v, e).Success? <==> |es| < CAPACITY
    ensures AddLink(v, e).Success? ==> Packed(AddLink(v, e).value, es + [e])
  {
  }

  /** Starting from a new writer, a run of `add_link` succeeds exactly while the number
      of links is at most `CAPACITY`; then every link added is in a written file or in
      the buffer, in order, and the written files hold `max_entries` links each. */
  lemma {:induction false} AddLinksPacked(host: string, root: string, es: seq<Entry>)
    ensures AddLinks(New(host, root), es).Success? <==> |es| <= CAPACITY
    ensures AddLinks(New(host, root), es).Success? ==> Packed(AddLinks(New(host, root), es).value, es)
    decreases |es|
  {
    if es != [] {
      var prefix := es[..|es| - 1];
      var e := es[|es| - 1];
      AddLinksPacked(host, root, prefix);
      if |prefix| <= CAPACITY {
        var v := AddLinks(New(host, root), prefix).value;
        assert prefix + [e] == es;
        PackedStep(v, prefix, e);
      }
    }
  }

  /** Writing after a run of at most `max_entries * max_entries` links succeeds, and the
      written files then hold every link, in the order added; the index is the last file
      written. */
  lemma WriteAfterAddLinks(host: string, root: string, es: seq<Entry>)
    requires |es| <= MAX_ENTRIES * MAX_ENTRIES
    ensures AddLinks(New(host, root), es).Success?
    ensures WritePending(AddLinks(New(host, root), es).value).Success?
    ensures var r := WritePending(AddLinks(New(host, root), es).value).value;
      Flushed(r.output) == es && r.output[|r.output| - 1].IndexOut?
  {
    AddLinksPacked(host, root, es);
    var v := AddLinks(New(host, root), es).value;
    assert MoreSitemaps(v);
    var r := WritePending(v).value;
    var file := SitemapPath(v.root, UpcomingFile(v).value);
    var written := SitemapOut(file, v.links);
    var index := IndexOut(IndexPath(v.root), v.sitemaps + [file]);
    assert r.output == v.output + [written, index];
    assert v.output + [written, index] == (v.output + [written]) + [index];
    assert Flushed(v.output + [written]) == Flushed(v.output) + v.links;
  }
}
